=== FILE: README.md ===
# Claude Refresh Time, modelled in Dafny

`crt` is a small command-line tool. It reports when the next token refresh of
a subscription happens. Refreshes recur every five hours on a grid anchored
at a calibration instant. The anchor is kept in a JSON settings file under
`last_refresh` as an ISO 8601 string. When no file exists, a built-in anchor
is used: 2025-08-25 02:00 at UTC-5. The user can move the anchor with
`--calibrate`, which accepts "now" or a date and time in one of eight
formats. Four of those formats end in a zone word: EST, EDT, PST, PDT or
UTC.

The model covers the whole computational core of `crt.py`:

- `Refresh`: the five-hour grid and the next-refresh calculation
  (`get_next_refresh_time`). It uses floor division on epoch microseconds.
- `Countdown`: the output line and its three countdown tiers
  (`format_output`).
- `DatetimeInput`: the calibration input parser (`parse_datetime_input`).
  It covers the "now" keyword, the eight formats in their order, the zone
  table, the stripping of the zone word and the final error.
- `Strptime`: the part of `datetime.strptime` the eight formats use. That is
  the directives `%Y %m %d %H %I %M %p`, literal characters and format
  whitespace. The module has a writer, so "each format reads back what it
  writes" can be stated.
- `Iso`: `isoformat()` and `fromisoformat()` for aware date-times with a
  whole-minute offset.
- `Civil`: the proleptic Gregorian calendar, and the instant an aware
  date-time denotes.
- `Text`: `str.split()`, `' '.join`, `lower`/`upper`, `str(n)` and
  zero-padded fields.
- `Config`: `load_config`, `calibrate`, and the next-refresh calculation
  fed from the stored settings.

Inputs from the host are parameters:

- The current UTC instant is `nowUtc`.
- The current local time with its offset is `clock`.
- The decoded settings file is `stored`; `None` means missing or unreadable.
- The locally formatted refresh time and the local zone name are strings.

`save_config` is modelled as the `saved` out-parameter of
`Config.Calibrate`, which holds the settings handed to it.

Instants are integers counting microseconds since the Unix epoch, so
`timedelta` arithmetic is exact. Python's `//` and `%` with a positive
divisor are Dafny's `/` and `%`.

Two consequences of how `get_next_refresh_time` computes (crt.py:94-101)
are worth spelling out, and the model keeps both:

- **Anchor in the future.** The elapsed time is floor-divided by the period,
  so an anchor that lies after the current instant gives a negative count,
  and the grid is followed backwards. `Refresh.NextRefresh` does the same:
  the grid extends in both directions.
- **Exact boundary.** When the elapsed time is a whole number of periods,
  the answer is the current instant itself, not the following boundary.

## Model

| member | source | states |
|---|---|---|
| Refresh.NextRefresh | crt.py:80-103 | The result lies in `[now, now + 5h)`, is on the anchor's 5-hour grid, and is `now` itself when `now` is on the grid. |
| Refresh.NextRefreshIsNextBoundary | crt.py:93-102 | The result equals the reference definition: the earliest grid boundary at or after `now`. Any instant meeting that definition is the result. |
| Refresh.OnGridIff | crt.py:101 | The grid boundaries are exactly `anchor + 5h * j` for an integer `j`, negative ones included. |
| Refresh.BoundariesAPeriodApart | crt.py:87 | Two boundaries less than one period apart are the same boundary. |
| Refresh.GridShift | crt.py:94-101 | Moving the anchor by whole periods leaves the set of grid boundaries unchanged. |
| Refresh.NextRefreshIdempotent | crt.py:98-99 | Asking again at the returned instant returns that same instant. |
| Refresh.NextRefreshAnchorShift | crt.py:94-101 | Moving the anchor by whole periods, in either direction, changes no answer. |
| Refresh.NextRefreshMonotonic | crt.py:94-101 | A later `now` never gets an earlier next refresh. |
| Countdown.SplitSeconds | crt.py:121-123 | Hours, minutes and seconds recompose the whole seconds; minutes and seconds are below 60. |
| Countdown.Classify | crt.py:117-130 | "Happening now" holds exactly when no time remains. The hours and minutes tiers have a non-zero leading unit and a trailing unit below 60. The seconds tier shows 0 to 59 seconds. |
| Countdown.ClassifyTiers | crt.py:121-130 | The hours tier holds iff at least an hour remains; minutes iff one minute to one hour; seconds iff under a minute. The shown time is the remainder truncated to the tier's unit, never rounded up. |
| Countdown.FormatOutputHappeningNow | crt.py:117-118 | The line ends in "(happening now!)" exactly when the remaining time is zero or negative. |
| Countdown.PhraseInjective | crt.py:125-130 | `Phrase`, the countdown's wording, is one-to-one: different countdowns are worded differently. |
| Countdown.FormatOutputDetermines | crt.py:105-132 | Two `format_output` lines with the same stamp and zone name that are equal announce the same countdown. |
| DatetimeInput.ParseDatetimeInput | crt.py:34-77 | "now" in any case returns the clock reading. Otherwise the result is what the first format that reads the input gives. If none does, the error is "could not parse" with the input and no format reads it. A valid clock gives a valid result. |
| DatetimeInput.FirstFormat | crt.py:60-77 | The loop over the formats returns the first format's result, or reports that no format reads the input. A valid local offset gives a valid result. |
| DatetimeInput.TryFormatValid | crt.py:61-75 | What `TryFormat`, one pass of the loop, gives is a calendar date-time. A zoned format's result is a valid aware date-time whatever the local offset; a zone-less format's is one under a valid local offset. |
| DatetimeInput.NowSpellings | crt.py:36 | The keyword is recognised exactly in its eight letter-case spellings. |
| DatetimeInput.ZoneCaseInsensitive | crt.py:65-66 | Zone words differing only in letter case are recognised alike and give the same offset. |
| DatetimeInput.ZoneKeysShape | crt.py:52-58 | Every key of the zone table is three capital letters. |
| DatetimeInput.ZoneTokenIsWord | crt.py:64-66 | A word that names a zone contains no whitespace. It survives `split()` intact. |
| DatetimeInput.FirstMatchUnique | crt.py:60-75 | At most one result is "the first format's result". The parser's answer is determined by the input. |
| DatetimeInput.NumericStartRejected | crt.py:68-72 | Text not starting with a digit is read by no format. |
| DatetimeInput.NonNumericRejected | crt.py:60-77 | Input whose first non-space character is not a digit, or that is blank, is read by no format. Unless it is the keyword "now", the parser then reports "could not parse". |
| DatetimeInput.ZoneSplitStart | crt.py:64-67 | The date text left after stripping the zone word starts at the input's first non-space character. |
| DatetimeInput.LocalReadBack | crt.py:68-72 | Each format, without its zone, reads back every whole-minute date-time it writes, with the hour padded or not. |
| DatetimeInput.RenderIsJoin | crt.py:64-67 | A format's rendering is its date, clock and AM/PM words joined by single spaces. |
| DatetimeInput.ZoneSplitOfRendered | crt.py:62-69 | `ZoneSplit`, the zone-word handling: for a rendered input, the zone word, in any case, is found and stripped and gives its table offset. An input without a zone word has none found. |
| DatetimeInput.YearFirstRejectsMonthFirst | crt.py:41-48 | A year-first format cannot read a month-first date: it meets two digits where it needs four. |
| DatetimeInput.TwelveHourRejectsTwentyFour | crt.py:41-48 | A 12-hour format cannot read a 24-hour rendering with the same date order: the AM/PM word is missing. |
| DatetimeInput.TryOwn | crt.py:60-73 | Each format reads its own rendering back. The offset comes from the zone word for zoned formats, or from the local offset otherwise. |
| DatetimeInput.TryEarlier | crt.py:40-49 | An earlier format gives way to a later one on the later one's rendering. |
| DatetimeInput.FormatsGiveWay | crt.py:40-49 | Each pair of formats in source order is one where the earlier gives way to the later. |
| DatetimeInput.RenderedInputReadBack | crt.py:34-77 | Whatever any of the eight formats writes, the parser returns that date-time with the right offset. Any zone word is accepted in any case, and the hour may be padded or not. |
| Strptime.FieldSpan | crt.py:68-72 | A numeric field consumes either the whole digit run in front of it, with that run's decimal value, or, for `%d`/`%I`, a space and one non-zero digit. The value is in the directive's range. A digit run the directive's pattern admits is always taken. |
| Strptime.Match | crt.py:68-72 | Every field a successful match captures is in its directive's range. |
| Strptime.Hour12RoundTrip | crt.py:41-47 | `%I` with `%p` is a one-to-one relabelling of the 24 hours: 12 AM is 0 and 12 PM is 12. |
| Strptime.Build | crt.py:68-72 | A built date-time exists in the calendar and has zero seconds and microseconds. |
| Strptime.Parse | crt.py:68-72 | A parsed date-time exists in the calendar and has zero seconds and microseconds. |
| Strptime.MatchRenderThen | crt.py:68-72 | Matching a rendered prefix followed by anything it may be followed by captures the prefix's fields and then matches the rest. |
| Strptime.ParseRender | crt.py:68-72 | A format naming date, minute and hour (24-hour, or 12-hour with AM/PM) reads back every whole-minute date-time it writes. |
| Iso.Scan | crt.py:86 | A successful read has values fitting the template and consumes a string of exactly the template's length. |
| Iso.ScanFill | crt.py:86 | Reading back what a template wrote gives the values it was given. |
| Iso.FromValues | crt.py:86 | Values read from a template yield only valid aware date-times. |
| Iso.IsoParse | crt.py:86 | `fromisoformat` yields only valid aware date-times. |
| Iso.IsoScan | crt.py:140 | `isoformat` writes exactly the template's length, and the template reads its output back as the date-time's fields. |
| Iso.IsoRoundTrip | crt.py:140 | `fromisoformat(a.isoformat()) == a` for every valid aware date-time with a whole-minute offset, with or without microseconds. |
| Civil.DaysInMonth | crt.py:68-72 | Months have 28 to 31 days, and 29 exactly for February of a leap year. |
| Civil.InstantEpoch | crt.py:91 | `Instant`, `astimezone(timezone.utc)` counted from the Unix epoch: 1970-01-01 00:00 at UTC is instant 0. |
| Civil.UtcRangeEnds | crt.py:91 | The range `InUtcRange` checks runs from the instant of 0001-01-01 00:00 at UTC to that of 9999-12-31 23:59:59.999999 at UTC, the UTC readings a `datetime` can hold. |
| Civil.OrdinalNextDay | crt.py:91 | The day after a date has the next day number, across month and year ends and leap days. |
| Civil.InstantNextDay | crt.py:91 | The same clock time one calendar day later, under the same offset, is exactly 24 hours later. |
| Text.FixedDigitsRoundTrip | crt.py:140 | A zero-padded field reads back as the number written. |
| Text.DecimalRoundTrip | crt.py:126-130 | `str(n)` reads back as `n`, and has a leading zero only for 0. |
| Text.WordsOfJoin | crt.py:64-67 | Splitting what `' '.join` built from words gives those words back. |
| Text.WordsSkipSpaces | crt.py:64 | Leading whitespace does not change `split()`, as with `strip().split()`. |
| Config.LoadConfig | crt.py:12-24 | The stored settings when there are any, else only `last_refresh` set to the built-in anchor string. |
| Config.Anchor | crt.py:82-91 | A missing `last_refresh` is a key error, an unreadable one an invalid-timestamp error, and one whose UTC reading leaves years 1 to 9999 an overflow error, each exactly then. Otherwise the anchor is the instant the string denotes. |
| Config.NextRefreshFromConfig | crt.py:80-103 | With readable settings the answer is within 5 hours of now and on the stored anchor's grid. It fails exactly when the anchor cannot be read or overflows on conversion to UTC. |
| Config.Calibrate | crt.py:134-154 | Settings are saved iff the input parses. The saved `last_refresh` is the parsed time's ISO string and other settings are kept. A failure carries the input and saves nothing. |
| Config.CalibratedAnchor | crt.py:134-144 | After calibrating to `v`, if `v`'s UTC reading is within the calendar, the stored anchor reads back as `v`'s instant. Refreshes follow `v`'s grid, and at `v` itself the refresh is happening now. Otherwise reading the anchor and computing the next refresh fail with the overflow error. |
| Config.LateAnchorOverflows | crt.py:46 | 9999-12-31 23:00 at UTC-8, which "12/31/9999 23:00 PST" calibrates to, lies past the calendar's end at UTC, so it cannot be read back as an anchor. |
| Config.DefaultAnchorInstant | crt.py:21-24 | The built-in string reads as 2025-08-25 02:00 at UTC-5, which is 1756105200 seconds after the epoch. |
| Config.DefaultScenario | crt.py:80-132 | With the built-in anchor, at 10:30 UTC the next refresh is 12:00 UTC, shown in the hours tier as 1 hour 30 minutes. |
| Config.DefaultScenarioWords | crt.py:126 | That countdown is worded "in 1 hours 30 mins". |

## Left out

- Printing, `sys.exit`, the command-line parser and `--version` (crt.py:146-187). They are I/O around the modelled functions.
- Reading and writing the settings file, including the JSON encoding. The file is the `stored` parameter, and what `save_config` receives is `saved`.
- The warning printed when saving fails. It is output only and does not change the result.
- The clock reads. `get_next_refresh_time` and `format_output` each read the clock; the model takes both readings as parameters. `remaining` is the refresh instant minus the second reading.
- The local rendering of the refresh time and the zone name from `strftime`. They come from the host's time-zone database and are taken as given strings.
- Floating point. `total_seconds()` is a float in the source. The model computes on exact integer microseconds and does not model float rounding.
- Non-ASCII case mappings in `lower()`/`upper()` (for example the long s) and non-ASCII digits in `strptime` fields. The model maps and reads ASCII only.
- `%p` is the C/English locale's AM/PM. Other locales' names are not modelled.
- Strptime.Match: each numeric field takes the whole digit run in front of it, where the regular expression can backtrack. The two agree when no two numeric fields are adjacent, which holds for all eight formats.
- Iso.IsoParse: only the shape `isoformat` writes is read: `T` separator, seconds, an optional six-digit fraction and a `±HH:MM` offset. Other forms `fromisoformat` accepts are read as errors. Such forms include `Z`, a space separator, three-digit fractions and offsets with seconds. An offset whose minutes are 60 or more, such as `+05:75`, is also read as an error. `isoformat` never writes one.
- Config.Anchor: a stored `last_refresh` without an offset is reported as an invalid timestamp. crt.py reads such a naive string and `astimezone` takes it as the host's local time; the host's zone database is not part of this model.
- Offsets are whole minutes strictly between -24h and +24h. Second-level offsets are not modelled.
- Config.LoadConfig: a settings file holding non-string values, or JSON that is not an object, is not modelled.

=== FILE: civil.dfy ===
/**
 * Civil date-times with a fixed UTC offset, and their position on the
 * time line in epoch microseconds. The day count follows the proleptic
 * Gregorian ordinal of Python's `datetime` (day 1 is 0001-01-01).
 */
module Civil {

  const MicrosPerSecond: int := 1_000_000
  const MicrosPerMinute: int := 60 * MicrosPerSecond
  const MicrosPerHour: int := 60 * MicrosPerMinute
  const MicrosPerDay: int := 24 * MicrosPerHour

  /** Ordinal of 1970-01-01, the Unix epoch. */
  const EpochOrdinal: int := 719_163

  /** A naive date-time: what `strptime` builds before a zone is attached. */
  datatype DateTime = DateTime(year: int, month: int, day: int,
                               hour: int, minute: int, second: int, micro: int)

  /**
   * An aware date-time: a local civil time and the fixed offset, in
   * minutes east of UTC, that `tzinfo` attaches to it.
   */
  datatype Aware = Aware(local: DateTime, offset: int)

  predicate IsLeap(y: int) {
    y % 4 == 0 && (y % 100 != 0 || y % 400 == 0)
  }

  function DaysInYear(y: int): int {
    if IsLeap(y) then 366 else 365
  }

  function DaysInMonth(y: int, m: int): (n: int)
    requires 1 <= m <= 12
    ensures 28 <= n <= 31
    ensures n == 29 <==> m == 2 && IsLeap(y)
  {
    if m == 2 then (if IsLeap(y) then 29 else 28)
    else if m == 4 || m == 6 || m == 9 || m == 11 then 30
    else 31
  }

  /** Days in the months of year `y` before month `m`. */
  function DaysBeforeMonth(y: int, m: int): int
    requires 1 <= m <= 12
  {
    var table := [0, 31, 59, 90, 120, 151, 181, 212, 243, 273, 304, 334];
    table[m - 1] + if m > 2 && IsLeap(y) then 1 else 0
  }

  /** Days in the years before year `y`, counted from year 1. */
  function DaysBeforeYear(y: int): int {
    var p := y - 1;
    p * 365 + p / 4 - p / 100 + p / 400
  }

  function Ordinal(y: int, m: int, d: int): int
    requires 1 <= m <= 12
  {
    DaysBeforeYear(y) + DaysBeforeMonth(y, m) + d
  }

  /** The dates `datetime` accepts: years 1 to 9999 and days that exist in their month. */
  predicate ValidDate(y: int, m: int, d: int) {
    1 <= y <= 9999 && 1 <= m <= 12 && 1 <= d <= DaysInMonth(y, m)
  }

  predicate ValidDateTime(t: DateTime) {
    && ValidDate(t.year, t.month, t.day)
    && 0 <= t.hour < 24 && 0 <= t.minute < 60 && 0 <= t.second < 60
    && 0 <= t.micro < MicrosPerSecond
  }

  /** A whole-minute offset strictly inside one day, as `timezone` demands. */
  predicate ValidOffset(offset: int) {
    -1440 < offset < 1440
  }

  predicate ValidAware(a: Aware) {
    ValidDateTime(a.local) && ValidOffset(a.offset)
  }

  /** The calendar day after a valid date. */
  function NextDay(y: int, m: int, d: int): (r: (int, int, int))
    requires ValidDate(y, m, d)
  {
    if d < DaysInMonth(y, m) then (y, m, d + 1)
    else if m < 12 then (y, m + 1, 1)
    else (y + 1, 1, 1)
  }

  /** Each year before `y + 1` contributes its own length to the day count. */
  lemma DaysBeforeNextYear(y: int)
    requires y >= 1
    ensures DaysBeforeYear(y + 1) == DaysBeforeYear(y) + DaysInYear(y)
  {
    var p := y - 1;
    assert (p + 1) / 4 - p / 4 == if y % 4 == 0 then 1 else 0;
    assert (p + 1) / 100 - p / 100 == if y % 100 == 0 then 1 else 0;
    assert (p + 1) / 400 - p / 400 == if y % 400 == 0 then 1 else 0;
  }

  /**
   * The ordinal counts calendar days without gaps: the day after a date
   * has the next ordinal, across month and year ends and leap days.
   */
  lemma OrdinalNextDay(y: int, m: int, d: int)
    requires ValidDate(y, m, d)
    ensures var (y', m', d') := NextDay(y, m, d);
      1 <= m' <= 12 && Ordinal(y', m', d') == Ordinal(y, m, d) + 1
  {
    if d == DaysInMonth(y, m) && m == 12 {
      DaysBeforeNextYear(y);
    }
  }

  /**
   * The instant an aware date-time denotes, in microseconds since the Unix
   * epoch: its local reading minus its offset (`astimezone(timezone.utc)`).
   */
  function Instant(a: Aware): int
    requires ValidAware(a)
  {
    var t := a.local;
    var days := Ordinal(t.year, t.month, t.day) - EpochOrdinal;
    days * MicrosPerDay
      + ((t.hour * 60 + t.minute) * 60 + t.second) * MicrosPerSecond + t.micro
      - a.offset * MicrosPerMinute
  }

  /**
   * The count starts at the Unix epoch: midnight of 1970-01-01 at UTC is
   * instant 0. With `InstantNextDay` this fixes every date's instant.
   */
  lemma InstantEpoch()
    ensures ValidAware(Aware(DateTime(1970, 1, 1, 0, 0, 0, 0), 0))
    ensures Instant(Aware(DateTime(1970, 1, 1, 0, 0, 0, 0), 0)) == 0
  {
  }

  /** The instant of 0001-01-01 00:00 at UTC, the first `datetime` can hold. */
  const FirstInstant: int := (1 - EpochOrdinal) * MicrosPerDay

  /** The instant of 9999-12-31 23:59:59.999999 at UTC, the last `datetime` can hold. */
  const LastInstant: int := (3_652_059 + 1 - EpochOrdinal) * MicrosPerDay - 1

  /**
   * The UTC reading of `a` is a `datetime` Python can hold: converting it
   * with `astimezone(timezone.utc)` does not overflow.
   */
  predicate InUtcRange(a: Aware)
    requires ValidAware(a)
  {
    FirstInstant <= Instant(a) <= LastInstant
  }

  /** The two bounds are the instants of the calendar's first and last moments at UTC. */
  lemma UtcRangeEnds()
    ensures ValidAware(Aware(DateTime(1, 1, 1, 0, 0, 0, 0), 0))
    ensures Instant(Aware(DateTime(1, 1, 1, 0, 0, 0, 0), 0)) == FirstInstant
    ensures ValidAware(Aware(DateTime(9999, 12, 31, 23, 59, 59, 999_999), 0))
    ensures Instant(Aware(DateTime(9999, 12, 31, 23, 59, 59, 999_999), 0)) == LastInstant
  {
  }

  /**
   * Reading the same clock time one calendar day later, under the same
   * offset, denotes the instant exactly 24 hours later.
   */
  lemma InstantNextDay(a: Aware)
    requires ValidAware(a)
    requires a.local.year < 9999 || a.local.month < 12 || a.local.day < 31
    ensures var t := a.local;
      var (y', m', d') := NextDay(t.year, t.month, t.day);
      var b := Aware(t.(year := y', month := m', day := d'), a.offset);
      ValidAware(b) && Instant(b) == Instant(a) + MicrosPerDay
  {
    var t := a.local;
    OrdinalNextDay(t.year, t.month, t.day);
  }
}

=== FILE: config.dfy ===
/**
 * The stored calibration and the two operations built on it: computing the
 * next refresh from the stored anchor, and calibrating, which stores a new
 * anchor read from the user's input. The configuration file itself is
 * represented by its decoded contents, `None` when it is missing or cannot
 * be read.
 */
module Config {
  import opened Wrappers
  import opened Text
  import opened Civil
  import opened Iso
  import opened Refresh
  import opened Countdown
  import opened DatetimeInput

  type Settings = map<string, string>

  const LastRefreshKey: string := "last_refresh"

  /** The built-in anchor: 2025-08-25 2:00 AM at UTC-5. */
  const DefaultLastRefresh: string := "2025-08-25T02:00:00-05:00"

  /** `load_config`: the stored settings, or the built-in ones when there are none. */
  function LoadConfig(stored: Option<Settings>): (c: Settings)
    ensures stored.Some? ==> c == stored.value
    ensures stored.None? ==> c == map[LastRefreshKey := DefaultLastRefresh]
  {
    match stored
    case Some(s) => s
    case None => map[LastRefreshKey := DefaultLastRefresh]
  }

  datatype ConfigError =
    | MissingLastRefresh        // `KeyError` on `config['last_refresh']`
    | InvalidTimestamp(s: string) // `ValueError` from `fromisoformat`
    | OutOfRange(s: string)       // `OverflowError` from `astimezone(timezone.utc)`

  /**
   * The calibration anchor the settings hold, as an instant: the stored
   * string is read with `fromisoformat` and converted to UTC, which fails
   * when the UTC reading falls outside years 1 to 9999.
   */
  function Anchor(c: Settings): (r: Result<int, ConfigError>)
    ensures LastRefreshKey !in c <==> r == Err(MissingLastRefresh)
    ensures LastRefreshKey in c && IsoParse(c[LastRefreshKey]).None? <==>
      r == Err(InvalidTimestamp(if LastRefreshKey in c then c[LastRefreshKey] else ""))
    ensures (LastRefreshKey in c && IsoParse(c[LastRefreshKey]).Some?
        && !InUtcRange(IsoParse(c[LastRefreshKey]).value)) <==>
      r == Err(OutOfRange(if LastRefreshKey in c then c[LastRefreshKey] else ""))
    ensures r.Ok? ==>
      && LastRefreshKey in c && IsoParse(c[LastRefreshKey]).Some?
      && r.value == Instant(IsoParse(c[LastRefreshKey]).value)
      && FirstInstant <= r.value <= LastInstant
  {
    if LastRefreshKey !in c then Err(MissingLastRefresh)
    else
      match IsoParse(c[LastRefreshKey])
      case None => Err(InvalidTimestamp(c[LastRefreshKey]))
      case Some(a) =>
        if InUtcRange(a) then Ok(Instant(a)) else Err(OutOfRange(c[LastRefreshKey]))
  }

  /**
   * `get_next_refresh_time`: the next refresh on the grid anchored at the
   * stored calibration, for the current instant `nowUtc`.
   */
  function NextRefreshFromConfig(stored: Option<Settings>, nowUtc: int): (r: Result<int, ConfigError>)
    ensures r.Ok? ==> nowUtc <= r.value < nowUtc + Period
    ensures r.Ok? ==> Anchor(LoadConfig(stored)).Ok? && OnGrid(Anchor(LoadConfig(stored)).value, r.value)
    ensures r.Err? <==> Anchor(LoadConfig(stored)).Err?
  {
    match Anchor(LoadConfig(stored))
    case Err(e) => Err(e)
    case Ok(anchor) => Ok(NextRefresh(anchor, nowUtc))
  }

  /**
   * `calibrate`: parse the input; on success store its ISO form under
   * `last_refresh`, keeping every other setting, and hand the settings to
   * `save_config` (`saved`); on failure store nothing.
   */
  method Calibrate(input: string, clock: Aware, stored: Option<Settings>)
    returns (saved: Option<Settings>, r: Result<Aware, ParseError>)
    requires ValidAware(clock)
    ensures r.Err? <==> saved.None?
    ensures r.Err? ==> r.error == CouldNotParse(input) && NoFormatMatches(input, clock.offset)
    ensures Lower(input) == "now" ==> r == Ok(clock)
    ensures Lower(input) != "now" && r.Ok? ==> FirstMatch(input, clock.offset, r.value)
    ensures r.Ok? ==>
      && ValidAware(r.value) && saved.Some?
      && LastRefreshKey in saved.value && saved.value[LastRefreshKey] == IsoFormat(r.value)
    ensures saved.Some? ==> forall k :: k != LastRefreshKey ==>
      (k in saved.value <==> k in LoadConfig(stored)) &&
      (k in saved.value ==> saved.value[k] == LoadConfig(stored)[k])
  {
    r := ParseDatetimeInput(input, clock);
    if r.Err? {
      saved := None;
      return;
    }
    var config := LoadConfig(stored);
    config := config[LastRefreshKey := IsoFormat(r.value)];
    saved := Some(config);
  }

  /**
   * After calibrating to `v`, the stored anchor is `v`'s instant: at that
   * instant the refresh is happening now, and refreshes recur every five
   * hours from it. When `v`'s UTC reading leaves the calendar, reading the
   * anchor back fails with the overflow instead.
   */
  lemma CalibratedAnchor(settings: Settings, v: Aware, nowUtc: int)
    requires ValidAware(v)
    ensures var c := settings[LastRefreshKey := IsoFormat(v)];
      InUtcRange(v) ==>
      && Anchor(c) == Ok(Instant(v))
      && NextRefreshFromConfig(Some(c), nowUtc) == Ok(NextRefresh(Instant(v), nowUtc))
      && NextRefreshFromConfig(Some(c), Instant(v)) == Ok(Instant(v))
      && Classify(NextRefresh(Instant(v), Instant(v)) - Instant(v)) == HappeningNow
    ensures var c := settings[LastRefreshKey := IsoFormat(v)];
      !InUtcRange(v) ==>
      && Anchor(c) == Err(OutOfRange(IsoFormat(v)))
      && NextRefreshFromConfig(Some(c), nowUtc) == Err(OutOfRange(IsoFormat(v)))
  {
    IsoRoundTrip(v);
  }

  /**
   * 9999-12-31 23:00 at UTC-8, which "12/31/9999 23:00 PST" calibrates to,
   * is 10000-01-01 07:00 at UTC: stored, it cannot be read back as an anchor.
   */
  lemma LateAnchorOverflows()
    ensures ValidAware(Aware(DateTime(9999, 12, 31, 23, 0, 0, 0), -8 * 60))
    ensures !InUtcRange(Aware(DateTime(9999, 12, 31, 23, 0, 0, 0), -8 * 60))
  {
    var a := Aware(DateTime(9999, 12, 31, 23, 0, 0, 0), -8 * 60);
    UtcRangeEnds();
    var last := Aware(DateTime(9999, 12, 31, 23, 59, 59, 999_999), 0);
    assert Instant(a) - Instant(last) == 7 * MicrosPerHour + 1;
  }

  /** The built-in anchor as an aware date-time. */
  const DefaultAnchor: Aware := Aware(DateTime(2025, 8, 25, 2, 0, 0, 0), -5 * 60)

  /** The built-in anchor reads as 2025-08-25 02:00 at UTC-5, the instant 07:00 UTC. */
  lemma DefaultAnchorInstant()
    ensures IsoParse(DefaultLastRefresh) == Some(DefaultAnchor)
    ensures Anchor(LoadConfig(None)) == Ok(1_756_105_200 * MicrosPerSecond)
  {
    DefaultIsoFormat();
    IsoRoundTrip(DefaultAnchor);
    DefaultInstant();
    var c := LoadConfig(None);
    assert c[LastRefreshKey] == DefaultLastRefresh;
  }

  lemma DefaultInstant()
    ensures ValidAware(DefaultAnchor) && Instant(DefaultAnchor) == 1_756_105_200 * MicrosPerSecond
    ensures InUtcRange(DefaultAnchor)
  {
  }

  lemma DefaultIsoFormat()
    ensures IsoFormat(DefaultAnchor) == DefaultLastRefresh
  {
    IsoValuesFit(DefaultAnchor);
    DefaultValues();
    DefaultSpelled(Template(false), IsoValues(DefaultAnchor));
    DefaultPiecesJoined();
  }

  /** The pieces `isoformat` writes for the built-in anchor. */
  lemma DefaultValues()
    ensures |IsoValues(DefaultAnchor)| == 15 && |Template(false)| == 15
    ensures Piece(Template(false)[0], IsoValues(DefaultAnchor)[0]) == "2025"
    ensures Piece(Template(false)[1], IsoValues(DefaultAnchor)[1]) == "-"
    ensures Piece(Template(false)[2], IsoValues(DefaultAnchor)[2]) == "08"
    ensures Piece(Template(false)[3], IsoValues(DefaultAnchor)[3]) == "-"
    ensures Piece(Template(false)[4], IsoValues(DefaultAnchor)[4]) == "25"
    ensures Piece(Template(false)[5], IsoValues(DefaultAnchor)[5]) == "T"
    ensures Piece(Template(false)[6], IsoValues(DefaultAnchor)[6]) == "02"
    ensures Piece(Template(false)[7], IsoValues(DefaultAnchor)[7]) == ":"
    ensures Piece(Template(false)[8], IsoValues(DefaultAnchor)[8]) == "00"
    ensures Piece(Template(false)[9], IsoValues(DefaultAnchor)[9]) == ":"
    ensures Piece(Template(false)[10], IsoValues(DefaultAnchor)[10]) == "00"
    ensures Piece(Template(false)[11], IsoValues(DefaultAnchor)[11]) == "-"
    ensures Piece(Template(false)[12], IsoValues(DefaultAnchor)[12]) == "05"
    ensures Piece(Template(false)[13], IsoValues(DefaultAnchor)[13]) == ":"
    ensures Piece(Template(false)[14], IsoValues(DefaultAnchor)[14]) == "00"
  {
    DefaultDatePieces();
    DefaultTimePieces();
    DefaultOffsetPieces();
  }

  lemma DefaultDatePieces()
    ensures |IsoValues(DefaultAnchor)| == 15 && |Template(false)| == 15
    ensures Piece(Template(false)[0], IsoValues(DefaultAnchor)[0]) == "2025"
    ensures Piece(Template(false)[1], IsoValues(DefaultAnchor)[1]) == "-"
    ensures Piece(Template(false)[2], IsoValues(DefaultAnchor)[2]) == "08"
    ensures Piece(Template(false)[3], IsoValues(DefaultAnchor)[3]) == "-"
    ensures Piece(Template(false)[4], IsoValues(DefaultAnchor)[4]) == "25"
  {
    TemplateSpelled();
    DefaultIsoValues();
    DefaultDigits();
  }

  lemma DefaultTimePieces()
    ensures |IsoValues(DefaultAnchor)| == 15 && |Template(false)| == 15
    ensures Piece(Template(false)[5], IsoValues(DefaultAnchor)[5]) == "T"
    ensures Piece(Template(false)[6], IsoValues(DefaultAnchor)[6]) == "02"
    ensures Piece(Template(false)[7], IsoValues(DefaultAnchor)[7]) == ":"
    ensures Piece(Template(false)[8], IsoValues(DefaultAnchor)[8]) == "00"
    ensures Piece(Template(false)[9], IsoValues(DefaultAnchor)[9]) == ":"
    ensures Piece(Template(false)[10], IsoValues(DefaultAnchor)[10]) == "00"
  {
    TemplateSpelled();
    DefaultIsoValues();
    DefaultDigits();
  }

  lemma DefaultOffsetPieces()
    ensures |IsoValues(DefaultAnchor)| == 15 && |Template(false)| == 15
    ensures Piece(Template(false)[11], IsoValues(DefaultAnchor)[11]) == "-"
    ensures Piece(Template(false)[12], IsoValues(DefaultAnchor)[12]) == "05"
    ensures Piece(Template(false)[13], IsoValues(DefaultAnchor)[13]) == ":"
    ensures Piece(Template(false)[14], IsoValues(DefaultAnchor)[14]) == "00"
  {
    TemplateSpelled();
    DefaultIsoValues();
    DefaultDigits();
  }

  lemma DefaultIsoValues()
    ensures ValidAware(DefaultAnchor)
    ensures IsoValues(DefaultAnchor) == [2025, 0, 8, 0, 25, 0, 2, 0, 0, 0, 0, 1, 5, 0, 0]
  {
  }

  /** The zero-padded numbers of the built-in anchor. */
  lemma DefaultDigits()
    ensures FixedDigits(2025, 4) == "2025"
    ensures FixedDigits(8, 2) == "08" && FixedDigits(25, 2) == "25"
    ensures FixedDigits(2, 2) == "02" && FixedDigits(0, 2) == "00" && FixedDigits(5, 2) == "05"
  {
    assert FixedDigits(2, 1) == "2";
    assert FixedDigits(20, 2) == "20";
    assert FixedDigits(202, 3) == "202";
  }

  lemma FillStep(tpl: seq<Token>, vals: seq<int>, i: nat, p: string, rest: string)
    requires Fits(tpl, vals) && i < |tpl|
    requires Piece(tpl[i], vals[i]) == p && Fill(tpl, vals, i + 1) == rest
    ensures Fill(tpl, vals, i) == p + rest
  {
  }

  /** Writing the built-in anchor's values gives the built-in string. */
  lemma DefaultSpelled(tpl: seq<Token>, vals: seq<int>)
    requires Fits(tpl, vals) && |tpl| == 15
    requires Piece(tpl[0], vals[0]) == "2025"
    requires Piece(tpl[1], vals[1]) == "-"
    requires Piece(tpl[2], vals[2]) == "08"
    requires Piece(tpl[3], vals[3]) == "-"
    requires Piece(tpl[4], vals[4]) == "25"
    requires Piece(tpl[5], vals[5]) == "T"
    requires Piece(tpl[6], vals[6]) == "02"
    requires Piece(tpl[7], vals[7]) == ":"
    requires Piece(tpl[8], vals[8]) == "00"
    requires Piece(tpl[9], vals[9]) == ":"
    requires Piece(tpl[10], vals[10]) == "00"
    requires Piece(tpl[11], vals[11]) == "-"
    requires Piece(tpl[12], vals[12]) == "05"
    requires Piece(tpl[13], vals[13]) == ":"
    requires Piece(tpl[14], vals[14]) == "00"
    ensures Fill(tpl, vals, 0) == DefaultPieces()
  {
    var r15: string := "";
    assert Fill(tpl, vals, 15) == r15;
    var r14 := "00";
    FillStep(tpl, vals, 14, "00", r15);
    assert "00" + r15 == r14;
    var r13 := ":" + r14;
    FillStep(tpl, vals, 13, ":", r14);
    var r12 := "05" + r13;
    FillStep(tpl, vals, 12, "05", r13);
    var r11 := "-" + r12;
    FillStep(tpl, vals, 11, "-", r12);
    var r10 := "00" + r11;
    FillStep(tpl, vals, 10, "00", r11);
    var r9 := ":" + r10;
    FillStep(tpl, vals, 9, ":", r10);
    var r8 := "00" + r9;
    FillStep(tpl, vals, 8, "00", r9);
    var r7 := ":" + r8;
    FillStep(tpl, vals, 7, ":", r8);
    var r6 := "02" + r7;
    FillStep(tpl, vals, 6, "02", r7);
    var r5 := "T" + r6;
    FillStep(tpl, vals, 5, "T", r6);
    var r4 := "25" + r5;
    FillStep(tpl, vals, 4, "25", r5);
    var r3 := "-" + r4;
    FillStep(tpl, vals, 3, "-", r4);
    var r2 := "08" + r3;
    FillStep(tpl, vals, 2, "08", r3);
    var r1 := "-" + r2;
    FillStep(tpl, vals, 1, "-", r2);
    var r0 := "2025" + r1;
    FillStep(tpl, vals, 0, "2025", r1);
  }

  /** The built-in string, piece by piece as `isoformat` writes it. */
  function DefaultPieces(): string {
    "2025" + ("-" + ("08" + ("-" + ("25" + ("T" + ("02" + (":" + ("00" + (":" + ("00" + ("-" + ("05" + (":" + ("00"))))))))))))))
  }

  lemma DefaultPiecesJoined()
    ensures DefaultPieces() == DefaultLastRefresh
  {
  }

  /**
   * With the built-in anchor, at 2025-08-25 10:30 UTC the next refresh is
   * 12:00 UTC, an hour and a half away.
   */
  lemma DefaultScenario()
    ensures NextRefreshFromConfig(None, 1_756_117_800 * MicrosPerSecond)
      == Ok(1_756_123_200 * MicrosPerSecond)
    ensures Classify(1_756_123_200 * MicrosPerSecond - 1_756_117_800 * MicrosPerSecond)
      == HoursMins(1, 30)
  {
    DefaultAnchorInstant();
    NextAfterDefault();
    assert 1_756_123_200 * MicrosPerSecond - 1_756_117_800 * MicrosPerSecond == 5_400 * MicrosPerSecond;
    HourAndAHalf();
  }

  lemma NextAfterDefault()
    ensures NextRefresh(1_756_105_200 * MicrosPerSecond, 1_756_117_800 * MicrosPerSecond)
      == 1_756_123_200 * MicrosPerSecond
  {
  }

  lemma HourAndAHalf()
    ensures Classify(5_400 * MicrosPerSecond) == HoursMins(1, 30)
  {
  }

  /** The countdown of that scenario as the tool words it. */
  lemma DefaultScenarioWords()
    ensures Phrase(HoursMins(1, 30)) == "in 1 hours 30 mins"
  {
    assert Decimal(30) == "30" by {
      assert Decimal(3) == "3";
    }
  }
}

=== FILE: countdown.dfy ===
/**
 * The output formatter: the line that announces the next refresh, with a
 * countdown in whole hours, minutes and seconds, never rounded up. The
 * local rendering of the refresh instant and the local zone name come from
 * the host and are taken as given strings.
 */
module Countdown {
  import opened Civil
  import opened Text

  /** The three countdown tiers, and the "happening now" case. */
  datatype Countdown =
    | HappeningNow
    | HoursMins(hours: nat, mins: nat)
    | MinsSecs(mins: nat, secs: nat)
    | Secs(secs: nat)

  /** Whole hours, the minutes left over, the seconds left over. */
  function SplitSeconds(total: nat): (hms: (nat, nat, nat))
    ensures hms.1 < 60 && hms.2 < 60
    ensures hms.0 * 3600 + hms.1 * 60 + hms.2 == total
  {
    (total / 3600, (total % 3600) / 60, total % 60)
  }

  /**
   * The countdown for `remaining` microseconds: "happening now" when
   * nothing remains; otherwise the whole seconds remaining are split into
   * hours, minutes and seconds, and the largest non-zero unit picks the tier.
   */
  function Classify(remaining: int): (c: Countdown)
    ensures remaining <= 0 <==> c == HappeningNow
    ensures c.HoursMins? ==> c.hours > 0 && c.mins < 60
    ensures c.MinsSecs? ==> 0 < c.mins < 60 && c.secs < 60
    ensures c.Secs? ==> c.secs < 60
  {
    if remaining <= 0 then HappeningNow
    else
      var (h, m, s) := SplitSeconds(remaining / MicrosPerSecond);
      if h > 0 then HoursMins(h, m)
      else if m > 0 then MinsSecs(m, s)
      else Secs(s)
  }

  /** The duration a countdown displays, in seconds. */
  function Shown(c: Countdown): nat {
    match c
    case HappeningNow => 0
    case HoursMins(h, m) => h * 3600 + m * 60
    case MinsSecs(m, s) => m * 60 + s
    case Secs(s) => s
  }

  /** The smallest unit a countdown displays, in seconds. */
  function Unit(c: Countdown): nat {
    if c.HoursMins? then 60 else 1
  }

  /**
   * Each tier is chosen by the size of what remains: an hour or more, a
   * minute up to an hour, or less than a minute; and every tier shows
   * the remaining time truncated to its unit, never rounded up.
   */
  lemma ClassifyTiers(remaining: int)
    requires remaining > 0
    ensures Classify(remaining).HoursMins? <==> remaining >= MicrosPerHour
    ensures Classify(remaining).MinsSecs? <==> MicrosPerMinute <= remaining < MicrosPerHour
    ensures Classify(remaining).Secs? <==> remaining < MicrosPerMinute
    ensures var c := Classify(remaining);
      Shown(c) * MicrosPerSecond <= remaining < (Shown(c) + Unit(c)) * MicrosPerSecond
  {
    var w := remaining / MicrosPerSecond;
    assert w * MicrosPerSecond <= remaining < (w + 1) * MicrosPerSecond;
    var (h, m, s) := SplitSeconds(w);
    assert h > 0 <==> w >= 3600;
    assert h == 0 ==> (m > 0 <==> w >= 60);
  }

  /** The countdown as the tool words it. */
  function Phrase(c: Countdown): string {
    match c
    case HappeningNow => "happening now!"
    case HoursMins(h, m) => "in " + Decimal(h) + " hours " + Decimal(m) + " mins"
    case MinsSecs(m, s) => "in " + Decimal(m) + " mins " + Decimal(s) + " secs"
    case Secs(s) => "in " + Decimal(s) + " secs"
  }

  /**
   * `format_output`: `stamp` is the refresh instant rendered in local time,
   * `zoneName` the local zone's name, `remaining` the refresh instant minus
   * the current instant.
   */
  function FormatOutput(stamp: string, zoneName: string, remaining: int): string {
    "Next refresh: " + stamp + " " + zoneName + " (" + Phrase(Classify(remaining)) + ")"
  }

  /** The line reads "(happening now!)" exactly when no time remains. */
  lemma FormatOutputHappeningNow(stamp: string, zoneName: string, remaining: int)
    ensures var prefix := "Next refresh: " + stamp + " " + zoneName + " (";
      FormatOutput(stamp, zoneName, remaining) == prefix + "happening now!)"
      <==> remaining <= 0
  {
    var prefix := "Next refresh: " + stamp + " " + zoneName + " (";
    var c := Classify(remaining);
    if c != HappeningNow {
      var out := FormatOutput(stamp, zoneName, remaining);
      assert out == prefix + (Phrase(c) + ")");
      assert Phrase(c)[0] == 'i';
      assert out[|prefix|] == 'i';
      assert (prefix + "happening now!)")[|prefix|] == 'h';
    }
  }

  /**
   * Two lines with the same stamp and zone name that read the same announce
   * the same countdown: the line determines what it counts down.
   */
  lemma FormatOutputDetermines(stamp: string, zoneName: string, r1: int, r2: int)
    requires FormatOutput(stamp, zoneName, r1) == FormatOutput(stamp, zoneName, r2)
    ensures Classify(r1) == Classify(r2)
  {
    var prefix := "Next refresh: " + stamp + " " + zoneName + " (";
    var p1 := Phrase(Classify(r1));
    var p2 := Phrase(Classify(r2));
    assert FormatOutput(stamp, zoneName, r1) == prefix + p1 + ")";
    assert FormatOutput(stamp, zoneName, r2) == prefix + p2 + ")";
    SuffixedDecimal(prefix, p1, p2, ")");
    PhraseInjective(Classify(r1), Classify(r2));
  }

  /** Distinct countdowns are worded differently, so the words determine the countdown. */
  lemma PhraseInjective(c: Countdown, d: Countdown)
    requires Phrase(c) == Phrase(d)
    ensures c == d
  {
    assert Phrase(c)[0] == Phrase(d)[0];
    if c != HappeningNow && d != HappeningNow {
      PhraseSplit(c);
      PhraseSplit(d);
      DecimalPrefixUnique(Decimal(Lead(c).0), Lead(c).1, Decimal(Lead(d).0), Lead(d).1);
      DecimalInjective(Lead(c).0, Lead(d).0);
      TailInjective(c, d);
    }
  }

  /** The number a countdown's words start with, and the words after it. */
  function Lead(c: Countdown): (nat, string)
    requires c != HappeningNow
  {
    match c
    case HoursMins(h, m) => (h, " hours " + Decimal(m) + " mins")
    case MinsSecs(m, s) => (m, " mins " + Decimal(s) + " secs")
    case Secs(s) => (s, " secs")
  }

  lemma PhraseSplit(c: Countdown)
    requires c != HappeningNow
    ensures Phrase(c) == "in " + Decimal(Lead(c).0) + Lead(c).1
    ensures Lead(c).1[0] == ' '
  {
  }

  lemma DecimalInjective(x: nat, y: nat)
    requires Decimal(x) == Decimal(y)
    ensures x == y
  {
    DecimalRoundTrip(x);
    DecimalRoundTrip(y);
  }

  /** Two digit strings, each followed by a space, can only line up if they are equal. */
  lemma DecimalPrefixUnique(a: string, ra: string, b: string, rb: string)
    requires AllDigits(a) && AllDigits(b)
    requires |ra| > 0 && ra[0] == ' ' && |rb| > 0 && rb[0] == ' '
    requires "in " + a + ra == "in " + b + rb
    ensures a == b && ra == rb
  {
    var s := "in " + a + ra;
    if |a| < |b| {
      CharAfter("in ", a, ra, b, rb);
      assert false;
    } else if |b| < |a| {
      CharAfter("in ", b, rb, a, ra);
      assert false;
    }
    assert a == s[3..3 + |a|] == b;
    assert ra == s[3 + |a|..] == rb;
  }

  /** Where a shorter middle ends, the longer one still has a character. */
  lemma CharAfter(p: string, x: string, rx: string, y: string, ry: string)
    requires |x| < |y| && |rx| > 0
    requires p + x + rx == p + y + ry
    ensures rx[0] == y[|x|]
  {
    assert (p + x + rx)[|p| + |x|] == rx[0];
    assert (p + y + ry)[|p| + |x|] == y[|x|];
  }

  /** The word after the leading number tells the tiers apart. */
  function Tag(c: Countdown): char
    requires c != HappeningNow
  {
    Lead(c).1[1]
  }

  lemma TailInjective(c: Countdown, d: Countdown)
    requires c != HappeningNow && d != HappeningNow
    requires Lead(c) == Lead(d)
    ensures c == d
  {
    assert Tag(c) == Tag(d);
    assert c.HoursMins? <==> Tag(c) == 'h';
    assert c.MinsSecs? <==> Tag(c) == 'm';
    assert d.HoursMins? <==> Tag(d) == 'h';
    assert d.MinsSecs? <==> Tag(d) == 'm';
    if c.HoursMins? {
      SuffixedDecimal(" hours ", Decimal(c.mins), Decimal(d.mins), " mins");
      DecimalInjective(c.mins, d.mins);
    } else if c.MinsSecs? {
      SuffixedDecimal(" mins ", Decimal(c.secs), Decimal(d.secs), " secs");
      DecimalInjective(c.secs, d.secs);
    }
  }

  /** Equal strings with equal heads and tails have equal middles. */
  lemma SuffixedDecimal(p: string, a: string, b: string, q: string)
    requires p + a + q == p + b + q
    ensures a == b
  {
    var s := p + a + q;
    assert |a| == |b|;
    assert a == s[|p|..|p| + |a|] == b;
  }
}

=== FILE: datetime_input.dfy ===
/**
 * The calibration input parser: "now" in any letter case, or a date and a
 * time of day in one of eight formats, tried in order. Four of the formats
 * end in a zone abbreviation from a fixed table; the others take the local
 * offset of the machine. The first format that reads the input decides.
 */
module DatetimeInput {
  import opened Wrappers
  import opened Text
  import opened Civil
  import opened Strptime

  datatype DateOrder = YearMonthDay | MonthDayYear

  datatype ClockStyle = TwelveHour | TwentyFourHour

  /** One accepted input format; `zoned` formats end in a zone abbreviation. */
  datatype Format = Format(order: DateOrder, clock: ClockStyle, zoned: bool)

  /** The formats in the order they are tried. */
  const Formats: seq<Format> := [
    Format(YearMonthDay, TwelveHour, true),       // %Y-%m-%d %I:%M %p %Z
    Format(YearMonthDay, TwentyFourHour, true),   // %Y-%m-%d %H:%M %Z
    Format(YearMonthDay, TwelveHour, false),      // %Y-%m-%d %I:%M %p
    Format(YearMonthDay, TwentyFourHour, false),  // %Y-%m-%d %H:%M
    Format(MonthDayYear, TwelveHour, true),       // %m/%d/%Y %I:%M %p %Z
    Format(MonthDayYear, TwentyFourHour, true),   // %m/%d/%Y %H:%M %Z
    Format(MonthDayYear, TwelveHour, false),      // %m/%d/%Y %I:%M %p
    Format(MonthDayYear, TwentyFourHour, false)   // %m/%d/%Y %H:%M
  ]

  function DateItems(o: DateOrder): seq<Item> {
    match o
    case YearMonthDay => [Field(Year), Literal('-'), Field(Month), Literal('-'), Field(Day)]
    case MonthDayYear => [Field(Month), Literal('/'), Field(Day), Literal('/'), Field(Year)]
  }

  /** The clock face, `%I:%M` or `%H:%M`. */
  function FaceItems(c: ClockStyle): seq<Item> {
    match c
    case TwelveHour => [Field(Hour12), Literal(':'), Field(Minute)]
    case TwentyFourHour => [Field(Hour24), Literal(':'), Field(Minute)]
  }

  function ClockItems(c: ClockStyle): seq<Item> {
    match c
    case TwelveHour => FaceItems(c) + [Blank, Field(AmPm)]
    case TwentyFourHour => FaceItems(c)
  }

  /**
   * The format without its zone: what `strptime` is given, for zoned
   * formats after `' %Z'` has been removed from the format string.
   */
  function LocalItems(f: Format): seq<Item> {
    DateItems(f.order) + [Blank] + ClockItems(f.clock)
  }

  /** The recognised zone abbreviations and their offsets in minutes east of UTC. */
  const ZoneTable: map<string, int> := map[
    "EST" := -5 * 60,
    "EDT" := -4 * 60,
    "PST" := -8 * 60,
    "PDT" := -7 * 60,
    "UTC" := 0
  ]

  /**
   * The zone handling of a zoned format: when the last whitespace-separated
   * word of the input, upper-cased, is a recognised abbreviation, the words
   * before it joined by single spaces, and the abbreviation's offset.
   */
  function ZoneSplit(input: string): Option<(string, int)> {
    var parts := Words(input);
    if |parts| > 0 && Upper(parts[|parts| - 1]) in ZoneTable then
      Some((JoinSpace(parts[..|parts| - 1]), ZoneTable[Upper(parts[|parts| - 1])]))
    else None
  }

  /** What trying one format gives: an aware date-time, or nothing. */
  function TryFormat(f: Format, input: string, localOffset: int): Option<Aware> {
    if f.zoned then
      match ZoneSplit(input)
      case None => None
      case Some((rest, offset)) =>
        match Parse(rest, LocalItems(f))
        case None => None
        case Some(t) => Some(Aware(t, offset))
    else
      match Parse(input, LocalItems(f))
      case None => None
      case Some(t) => Some(Aware(t, localOffset))
  }

  datatype ParseError = CouldNotParse(input: string)

  /** `a` is what the first format that reads `input` gives. */
  ghost predicate FirstMatch(input: string, localOffset: int, a: Aware) {
    exists i :: 0 <= i < |Formats| && TryFormat(Formats[i], input, localOffset) == Some(a)
      && forall j :: 0 <= j < i ==> TryFormat(Formats[j], input, localOffset).None?
  }

  predicate NoFormatMatches(input: string, localOffset: int) {
    forall i :: 0 <= i < |Formats| ==> TryFormat(Formats[i], input, localOffset).None?
  }

  /**
   * `parse_datetime_input`. The clock reading `clock` is the machine's
   * current local time with its offset (`datetime.now().astimezone()`),
   * which "now" returns and whose offset the zone-less formats attach.
   */
  method ParseDatetimeInput(input: string, clock: Aware) returns (r: Result<Aware, ParseError>)
    ensures Lower(input) == "now" ==> r == Ok(clock)
    ensures Lower(input) != "now" && r.Ok? ==> FirstMatch(input, clock.offset, r.value)
    ensures Lower(input) != "now" && r.Err? ==>
      NoFormatMatches(input, clock.offset) && r.error == CouldNotParse(input)
    ensures ValidAware(clock) && r.Ok? ==> ValidAware(r.value)
  {
    if Lower(input) == "now" {
      return Ok(clock);
    }
    var a := FirstFormat(input, clock.offset);
    if a.Some? {
      r := Ok(a.value);
    } else {
      r := Err(CouldNotParse(input));
    }
  }

  /** The formats tried in order; the first one that reads the input decides. */
  method FirstFormat(input: string, localOffset: int) returns (a: Option<Aware>)
    ensures a.Some? ==> FirstMatch(input, localOffset, a.value)
    ensures a.Some? && ValidOffset(localOffset) ==> ValidAware(a.value)
    ensures a.None? ==> NoFormatMatches(input, localOffset)
  {
    var i := 0;
    while i < |Formats|
      invariant 0 <= i <= |Formats|
      invariant forall j :: 0 <= j < i ==> TryFormat(Formats[j], input, localOffset).None?
    {
      a := TryFormat(Formats[i], input, localOffset);
      if a.Some? {
        TryFormatValid(Formats[i], input, localOffset);
        assert FirstMatch(input, localOffset, a.value) by {
          assert TryFormat(Formats[i], input, localOffset) == Some(a.value);
        }
        return;
      }
      i := i + 1;
    }
    a := None;
  }

  /**
   * A format's result is a calendar date-time. A zoned format's result is a
   * valid aware date-time whatever the local offset; a zone-less format's
   * is one under a valid local offset.
   */
  lemma TryFormatValid(f: Format, input: string, localOffset: int)
    ensures var a := TryFormat(f, input, localOffset);
      a.Some? ==> ValidDateTime(a.value.local)
    ensures var a := TryFormat(f, input, localOffset);
      a.Some? && f.zoned ==> ValidAware(a.value)
    ensures var a := TryFormat(f, input, localOffset);
      a.Some? && ValidOffset(localOffset) ==> ValidAware(a.value)
  {
    var a := TryFormat(f, input, localOffset);
    if f.zoned && ZoneSplit(input).Some? {
      var z := Upper(Words(input)[|Words(input)| - 1]);
      assert z in ZoneTable;
      assert ValidOffset(ZoneTable[z]);
    }
  }

  // ---------------------------------------------------------------------
  // Properties of the parser.

  /** "now" is recognised in every mix of letter cases, and nothing else is. */
  lemma NowSpellings(s: string)
    ensures Lower(s) == "now" <==>
      |s| == 3 && (s[0] == 'n' || s[0] == 'N') && (s[1] == 'o' || s[1] == 'O')
      && (s[2] == 'w' || s[2] == 'W')
  {
    if Lower(s) == "now" {
      assert LowerChar(s[0]) == 'n' && LowerChar(s[1]) == 'o' && LowerChar(s[2]) == 'w';
    }
  }

  /** Two spellings of a zone token that differ only in letter case name the same zone. */
  lemma ZoneCaseInsensitive(z: string, z': string)
    requires Lower(z) == Lower(z')
    ensures Upper(z) in ZoneTable <==> Upper(z') in ZoneTable
    ensures Upper(z) in ZoneTable ==> ZoneTable[Upper(z)] == ZoneTable[Upper(z')]
  {
    assert |z| == |z'|;
    forall i | 0 <= i < |z|
      ensures UpperChar(z[i]) == UpperChar(z'[i])
    {
      assert LowerChar(z[i]) == LowerChar(z'[i]);
    }
    assert Upper(z) == Upper(z');
  }

  /** Every recognised abbreviation is three capital letters. */
  lemma ZoneKeysShape(k: string)
    requires k in ZoneTable
    ensures |k| == 3 && forall i :: 0 <= i < 3 ==> 'A' <= k[i] <= 'Z'
  {
  }

  /** A token that names a zone is a single word. */
  lemma ZoneTokenIsWord(z: string)
    requires Upper(z) in ZoneTable
    ensures IsWord(z)
  {
    ZoneKeysShape(Upper(z));
    forall i | 0 <= i < |z|
      ensures !IsSpace(z[i])
    {
      assert 'A' <= UpperChar(z[i]) <= 'Z';
    }
  }

  /** The format that decides is unique, so the parser's answer is determined by its input. */
  lemma FirstMatchUnique(input: string, localOffset: int, a: Aware, b: Aware)
    requires FirstMatch(input, localOffset, a) && FirstMatch(input, localOffset, b)
    ensures a == b
  {
    var i :| 0 <= i < |Formats| && TryFormat(Formats[i], input, localOffset) == Some(a)
      && forall j :: 0 <= j < i ==> TryFormat(Formats[j], input, localOffset).None?;
    var k :| 0 <= k < |Formats| && TryFormat(Formats[k], input, localOffset) == Some(b)
      && forall j :: 0 <= j < k ==> TryFormat(Formats[j], input, localOffset).None?;
    if i < k {
      assert false;
    } else if k < i {
      assert false;
    }
  }

  /** A format's first field is a month or a year, so its input must start with a digit. */
  lemma NumericStartRejected(f: Format, s: string)
    requires s == [] || !IsDigit(s[0])
    ensures Parse(s, LocalItems(f)) == None
  {
    var items := LocalItems(f);
    assert items[0] == Field(if f.order == YearMonthDay then Year else Month);
    assert DigitRun(s) == 0;
    assert s[..0] == [];
  }

  /**
   * Input whose first character that is not whitespace is not a digit —
   * a word such as "tomorrow", or nothing at all — is read by no format.
   */
  lemma NonNumericRejected(input: string, localOffset: int)
    requires var k := SpaceRun(input); k == |input| || !IsDigit(input[k])
    ensures NoFormatMatches(input, localOffset)
  {
    forall i | 0 <= i < |Formats|
      ensures TryFormat(Formats[i], input, localOffset).None?
    {
      NonNumericRejectedBy(Formats[i], input, localOffset);
    }
  }

  lemma NonNumericRejectedBy(f: Format, input: string, localOffset: int)
    requires var k := SpaceRun(input); k == |input| || !IsDigit(input[k])
    ensures TryFormat(f, input, localOffset).None?
  {
    if f.zoned {
      if ZoneSplit(input).Some? {
        ZoneSplitStart(input);
        NumericStartRejected(f, ZoneSplit(input).value.0);
      }
    } else {
      LeadingNonDigit(input);
      NumericStartRejected(f, input);
    }
  }

  lemma LeadingNonDigit(s: string)
    requires var k := SpaceRun(s); k == |s| || !IsDigit(s[k])
    ensures s == [] || !IsDigit(s[0])
  {
    if SpaceRun(s) > 0 {
      assert IsSpace(s[0]);
    }
  }

  /** What a zoned format reads starts where the input's first word does. */
  lemma ZoneSplitStart(input: string)
    requires ZoneSplit(input).Some?
    ensures var rest := ZoneSplit(input).value.0;
      rest == [] || (SpaceRun(input) < |input| && rest[0] == input[SpaceRun(input)])
    ensures var k := SpaceRun(input); var rest := ZoneSplit(input).value.0;
      (k == |input| || !IsDigit(input[k])) ==> rest == [] || !IsDigit(rest[0])
  {
    var k := SpaceRun(input);
    var parts := Words(input);
    var init := parts[..|parts| - 1];
    var rest := JoinSpace(init);
    if |init| > 0 {
      WordsSkipSpaces(input);
      assert k < |input|;
      FirstWordStart(input[k..]);
      JoinSpaceStart(init);
      assert rest[0] == input[k];
    }
  }

  // ---------------------------------------------------------------------
  // Reading back what the formats write.

  lemma LocalItemsSeparated(f: Format)
    ensures Separated(DateItems(f.order) + [Blank])
    ensures Separated(LocalItems(f))
  {
    DateBlankSeparated(f.order);
    ClockSeparated(f.clock);
    SeparatedJoin(DateItems(f.order) + [Blank], ClockItems(f.clock));
  }

  lemma DateBlankSeparated(o: DateOrder)
    ensures Separated(DateItems(o) + [Blank])
  {
    if o == YearMonthDay {
      assert DateItems(o) + [Blank] ==
        [Field(Year), Literal('-'), Field(Month), Literal('-'), Field(Day), Blank];
    } else {
      assert DateItems(o) + [Blank] ==
        [Field(Month), Literal('/'), Field(Day), Literal('/'), Field(Year), Blank];
    }
  }

  lemma ClockSeparated(c: ClockStyle)
    ensures Separated(ClockItems(c)) && ClockItems(c) != [] && !ClockItems(c)[0].Blank?
  {
    if c == TwelveHour {
      assert ClockItems(c) == [Field(Hour12), Literal(':'), Field(Minute), Blank, Field(AmPm)];
    }
  }

  lemma LocalItemsDirectives(f: Format)
    ensures var ds := DirectivesOf(LocalItems(f));
      && {Year, Month, Day, Minute} <= ds
      && ((Hour24 in ds && Hour12 !in ds) || (Hour12 in ds && AmPm in ds))
  {
    var items := LocalItems(f);
    forall d
      ensures d in DirectivesOf(items) <==> Field(d) in items
    {
      DirectivesOfIff(items, d);
    }
    var date := DateItems(f.order);
    var clock := ClockItems(f.clock);
    assert items == date + [Blank] + clock;
    assert Field(Year) in date && Field(Month) in date && Field(Day) in date;
    assert Field(Minute) in clock;
    if f.clock == TwelveHour {
      assert Field(Hour12) in clock && Field(AmPm) in clock;
    } else {
      assert Field(Hour24) in clock;
      assert Field(Hour12) !in date && Field(Hour12) !in clock;
    }
  }

  /** Each format reads back every whole-minute date-time it writes, hour padded or not. */
  lemma LocalReadBack(f: Format, t: DateTime, padHour: bool)
    requires ValidDateTime(t) && t.second == 0 && t.micro == 0
    ensures Parse(Render(LocalItems(f), t, padHour), LocalItems(f)) == Some(t)
  {
    LocalItemsSeparated(f);
    LocalItemsDirectives(f);
    ParseRender(LocalItems(f), t, padHour);
  }

  /** The words a rendering of a format consists of: the date, the clock face, and AM/PM. */
  function Pieces(f: Format, t: DateTime, padHour: bool): seq<string>
    requires ValidDateTime(t)
  {
    [Render(DateItems(f.order), t, padHour)] + ClockPieces(f.clock, t, padHour)
  }

  function ClockPieces(c: ClockStyle, t: DateTime, padHour: bool): seq<string>
    requires ValidDateTime(t)
  {
    match c
    case TwelveHour => [Render(FaceItems(TwelveHour), t, padHour), Render([Field(AmPm)], t, padHour)]
    case TwentyFourHour => [Render(FaceItems(TwentyFourHour), t, padHour)]
  }

  lemma PiecesAreWords(f: Format, t: DateTime, padHour: bool)
    requires ValidDateTime(t)
    ensures var ps := Pieces(f, t, padHour);
      (forall i :: 0 <= i < |ps| ==> IsWord(ps[i])) && |ps[|ps| - 1]| != 3
  {
    var ps := Pieces(f, t, padHour);
    var cp := ClockPieces(f.clock, t, padHour);
    RenderWord(DateItems(f.order), t, padHour);
    ClockPiecesAreWords(f.clock, t, padHour);
    assert ps[|ps| - 1] == cp[|cp| - 1];
    forall i | 0 < i < |ps|
      ensures IsWord(ps[i])
    {
      assert ps[i] == cp[i - 1];
    }
  }

  lemma ClockPiecesAreWords(c: ClockStyle, t: DateTime, padHour: bool)
    requires ValidDateTime(t)
    ensures var cp := ClockPieces(c, t, padHour);
      |cp| > 0 && (forall i :: 0 <= i < |cp| ==> IsWord(cp[i])) && |cp[|cp| - 1]| != 3
  {
    RenderWord(FaceItems(c), t, padHour);
    FaceLength(c, t, padHour);
    if c == TwelveHour {
      RenderWord([Field(AmPm)], t, padHour);
      assert |Render([Field(AmPm)], t, padHour)| == 2;
    }
  }

  /** A clock face is at least "H:MM". */
  lemma FaceLength(c: ClockStyle, t: DateTime, padHour: bool)
    requires ValidDateTime(t)
    ensures |Render(FaceItems(c), t, padHour)| >= 4
  {
    var face := FaceItems(c);
    assert Render(face, t, padHour) == RenderItem(face[0], t, padHour) + (":" + Render(face[2..], t, padHour));
    RenderItemWord(face[0], t, padHour);
    assert Render(face[2..], t, padHour) == FixedDigits(t.minute, 2) + "";
  }

  /** A format's rendering is its pieces joined by single spaces. */
  lemma RenderIsJoin(f: Format, t: DateTime, padHour: bool)
    requires ValidDateTime(t)
    ensures Render(LocalItems(f), t, padHour) == JoinSpace(Pieces(f, t, padHour))
  {
    var date := DateItems(f.order);
    RenderAppend(date + [Blank], ClockItems(f.clock), t, padHour);
    RenderAppend(date, [Blank], t, padHour);
    assert Render([Blank], t, padHour) == " ";
    ClockIsJoin(f.clock, t, padHour);
    JoinSpaceCons(Render(date, t, padHour), ClockPieces(f.clock, t, padHour));
  }

  /** The clock part of a rendering is its face, then the AM/PM word after a space. */
  lemma ClockIsJoin(c: ClockStyle, t: DateTime, padHour: bool)
    requires ValidDateTime(t)
    ensures Render(ClockItems(c), t, padHour) == JoinSpace(ClockPieces(c, t, padHour))
  {
    var face := FaceItems(c);
    if c == TwelveHour {
      RenderAppend(face, [Blank, Field(AmPm)], t, padHour);
      var p := Render([Field(AmPm)], t, padHour);
      assert Render([Blank, Field(AmPm)], t, padHour) == " " + p by {
        assert [Blank, Field(AmPm)][1..] == [Field(AmPm)];
      }
      var cp := ClockPieces(c, t, padHour);
      assert cp[1..] == [p];
    }
  }

  /** What a user types for `t` in format `f`: its rendering, then the zone token `z` for zoned formats. */
  function RenderInput(f: Format, t: DateTime, padHour: bool, z: string): string
    requires ValidDateTime(t)
  {
    Render(LocalItems(f), t, padHour) + (if f.zoned then " " + z else "")
  }

  /**
   * The zone token of a rendered input is found and stripped, whatever its
   * letter case; a rendered input without one has no zone to find.
   */
  lemma ZoneSplitOfRendered(f: Format, t: DateTime, padHour: bool, z: string)
    requires ValidDateTime(t) && (f.zoned ==> Upper(z) in ZoneTable)
    ensures ZoneSplit(RenderInput(f, t, padHour, z)) ==
      if f.zoned then Some((Render(LocalItems(f), t, padHour), ZoneTable[Upper(z)])) else None
  {
    var ps := Pieces(f, t, padHour);
    RenderIsJoin(f, t, padHour);
    PiecesAreWords(f, t, padHour);
    var input := RenderInput(f, t, padHour, z);
    if f.zoned {
      assert input == JoinSpace(ps) + " " + z;
      ZoneSplitOfZoned(ps, z);
    } else {
      assert input == JoinSpace(ps);
      ZoneSplitOfZoneless(ps);
    }
  }

  /** Words followed by a zone word: the zone is found, and the words before it are rejoined. */
  lemma ZoneSplitOfZoned(ps: seq<string>, z: string)
    requires |ps| > 0 && forall i :: 0 <= i < |ps| ==> IsWord(ps[i])
    requires Upper(z) in ZoneTable
    ensures ZoneSplit(JoinSpace(ps) + " " + z) == Some((JoinSpace(ps), ZoneTable[Upper(z)]))
  {
    ZoneTokenIsWord(z);
    JoinSpaceSnoc(ps, z);
    WordsOfJoin(ps + [z]);
    assert (ps + [z])[..|ps|] == ps;
    assert (ps + [z])[|ps|] == z;
  }

  /** Words whose last word is not three characters long carry no zone. */
  lemma ZoneSplitOfZoneless(ps: seq<string>)
    requires |ps| > 0 && forall i :: 0 <= i < |ps| ==> IsWord(ps[i])
    requires |ps[|ps| - 1]| != 3
    ensures ZoneSplit(JoinSpace(ps)) == None
  {
    WordsOfJoin(ps);
    var last := ps[|ps| - 1];
    if Upper(last) in ZoneTable {
      ZoneKeysShape(Upper(last));
      assert false;
    }
  }

  /** A year-first format cannot read a month-first rendering: the leading run has two digits, not four. */
  lemma YearFirstRejectsMonthFirst(g: Format, f: Format, t: DateTime, padHour: bool, tail: string)
    requires ValidDateTime(t) && g.order == YearMonthDay && f.order == MonthDayYear
    ensures Parse(Render(LocalItems(f), t, padHour) + tail, LocalItems(g)) == None
  {
    var r := Render(LocalItems(f), t, padHour);
    MonthFirstStart(f, t, padHour);
    var s := r + tail;
    assert s[..2] == r[..2] && s[2] == r[2];
    YearFirstNeedsFourDigits(g, s);
  }

  /** A month-first rendering starts with two digits and a slash. */
  lemma MonthFirstStart(f: Format, t: DateTime, padHour: bool)
    requires ValidDateTime(t) && f.order == MonthDayYear
    ensures var r := Render(LocalItems(f), t, padHour);
      |r| > 2 && AllDigits(r[..2]) && r[2] == '/'
  {
    var date := DateItems(f.order);
    RenderAppend(date + [Blank], ClockItems(f.clock), t, padHour);
    RenderAppend(date, [Blank], t, padHour);
    var mm := FixedDigits(t.month, 2);
    var d := Render(date, t, padHour);
    assert d == mm + ("/" + Render(date[2..], t, padHour)) by {
      assert date[1..][1..] == date[2..];
    }
  }

  /** A year-first format reads nothing that starts with two digits and a slash. */
  lemma YearFirstNeedsFourDigits(g: Format, s: string)
    requires g.order == YearMonthDay
    requires |s| > 2 && AllDigits(s[..2]) && s[2] == '/'
    ensures Parse(s, LocalItems(g)) == None
  {
    assert s == s[..2] + s[2..];
    DigitRunOfDigits(s[..2], s[2..]);
    assert FieldSpan(Year, s) == None;
    assert LocalItems(g)[0] == Field(Year);
    MatchHeadFails(LocalItems(g), s);
  }

  /** The 12-hour clock items cannot read a 24-hour clock face: the AM/PM word is missing. */
  lemma TwelveHourRejectsFace(t: DateTime, padHour: bool)
    requires ValidDateTime(t)
    ensures Match(ClockItems(TwelveHour), Render(FaceItems(TwentyFourHour), t, padHour)) == None
  {
    var hh := NumText(Hour24, t.hour, padHour);
    var mm := FixedDigits(t.minute, 2);
    var face := FaceItems(TwentyFourHour);
    assert Render(face, t, padHour) == hh + (":" + mm) by {
      assert face[1..][1..] == [Field(Minute)];
      assert Render([Field(Minute)], t, padHour) == mm + "";
    }
    NumTextDigits(Hour24, t.hour, padHour);
    TwelveHourNeedsAmPm(hh, mm);
  }

  /** The 12-hour clock items read nothing of the form "digits:digits". */
  lemma TwelveHourNeedsAmPm(hh: string, mm: string)
    requires 0 < |hh| && AllDigits(hh) && AllDigits(mm)
    ensures Match(ClockItems(TwelveHour), hh + (":" + mm)) == None
  {
    var s := hh + (":" + mm);
    var rest := [Literal(':'), Field(Minute), Blank, Field(AmPm)];
    assert ClockItems(TwelveHour) == [Field(Hour12)] + rest;
    DigitRunOfDigits(hh, ":" + mm);
    if FieldSpan(Hour12, s).Some? {
      assert FieldSpan(Hour12, s).value.0 == |hh|;
      assert s[|hh|..] == ":" + mm;
      assert rest[1..] == [Field(Minute), Blank, Field(AmPm)];
      assert (":" + mm)[1..] == mm;
      MinuteThenAmPmFails(mm);
    }
  }

  /** After the minutes, the AM/PM word cannot be found in what is left of a run of digits. */
  lemma MinuteThenAmPmFails(mm: string)
    requires AllDigits(mm)
    ensures Match([Field(Minute), Blank, Field(AmPm)], mm) == None
  {
    DigitRunOfDigits(mm, "");
    assert mm + "" == mm;
    if FieldSpan(Minute, mm).Some? {
      assert mm[FieldSpan(Minute, mm).value.0..] == "";
      assert Match([Blank, Field(AmPm)], "") == None;
    }
  }

  /** A 12-hour format cannot read what the 24-hour format of the same date order writes. */
  lemma TwelveHourRejectsTwentyFour(g: Format, f: Format, t: DateTime, padHour: bool)
    requires ValidDateTime(t)
    requires g.order == f.order && g.clock == TwelveHour && f.clock == TwentyFourHour
    ensures Parse(Render(LocalItems(f), t, padHour), LocalItems(g)) == None
  {
    var p := DateItems(f.order) + [Blank];
    var face := FaceItems(TwentyFourHour);
    var r := Render(face, t, padHour);
    LocalItemsSeparated(f);
    RenderAppend(p, face, t, padHour);
    RenderStart(face, t, padHour);
    MatchRenderThen(p, ClockItems(TwelveHour), t, padHour, r);
    TwelveHourRejectsFace(t, padHour);
  }

  /** The offset a rendered input should come back with. */
  function ExpectedOffset(f: Format, z: string, localOffset: int): int
    requires f.zoned ==> Upper(z) in ZoneTable
  {
    if f.zoned then ZoneTable[Upper(z)] else localOffset
  }

  /** Each format reads what it writes, with the token's zone or the local offset. */
  lemma TryOwn(f: Format, t: DateTime, padHour: bool, z: string, localOffset: int)
    requires ValidDateTime(t) && t.second == 0 && t.micro == 0
    requires f.zoned ==> Upper(z) in ZoneTable
    ensures TryFormat(f, RenderInput(f, t, padHour, z), localOffset)
      == Some(Aware(t, ExpectedOffset(f, z, localOffset)))
  {
    ZoneSplitOfRendered(f, t, padHour, z);
    LocalReadBack(f, t, padHour);
    if !f.zoned {
      assert RenderInput(f, t, padHour, z) == Render(LocalItems(f), t, padHour);
    }
  }

  /**
   * Why an earlier format `g` gives way to `f` on what `f` writes: a zoned
   * format finds no zone token, a year-first format meets a two-digit month,
   * or a 12-hour format misses its AM/PM word.
   */
  predicate GivesWay(g: Format, f: Format) {
    || (g.zoned && !f.zoned)
    || (g.order == YearMonthDay && f.order == MonthDayYear)
    || (g.order == f.order && g.zoned == f.zoned && g.clock == TwelveHour && f.clock == TwentyFourHour)
  }

  lemma TryEarlier(g: Format, f: Format, t: DateTime, padHour: bool, z: string, localOffset: int)
    requires ValidDateTime(t) && GivesWay(g, f)
    requires f.zoned ==> Upper(z) in ZoneTable
    ensures TryFormat(g, RenderInput(f, t, padHour, z), localOffset).None?
  {
    var input := RenderInput(f, t, padHour, z);
    var rendered := Render(LocalItems(f), t, padHour);
    ZoneSplitOfRendered(f, t, padHour, z);
    if g.zoned && !f.zoned {
    } else if g.order == YearMonthDay && f.order == MonthDayYear {
      if g.zoned {
        YearFirstRejectsMonthFirst(g, f, t, padHour, "");
        assert rendered + "" == rendered;
      } else {
        YearFirstRejectsMonthFirst(g, f, t, padHour, if f.zoned then " " + z else "");
      }
    } else {
      TwelveHourRejectsTwentyFour(g, f, t, padHour);
      if !g.zoned {
        assert input == rendered;
      }
    }
  }

  /** Every ordering of two formats the parser tries is one where the earlier gives way. */
  lemma FormatsGiveWay(i: int, j: int)
    requires 0 <= j < i < |Formats|
    ensures GivesWay(Formats[j], Formats[i])
  {
  }

  /**
   * Whatever a format writes — a whole-minute date-time, the hour padded or
   * not, and for a zoned format a known zone token in any letter case — the
   * parser reads back as that date-time with the token's offset, or with the
   * local offset when there is no token; the formats before it give way.
   */
  lemma RenderedInputReadBack(i: int, t: DateTime, padHour: bool, z: string, localOffset: int)
    requires 0 <= i < |Formats|
    requires ValidDateTime(t) && t.second == 0 && t.micro == 0
    requires Formats[i].zoned ==> Upper(z) in ZoneTable
    ensures var f := Formats[i]; var input := RenderInput(f, t, padHour, z);
      && Lower(input) != "now"
      && FirstMatch(input, localOffset, Aware(t, ExpectedOffset(f, z, localOffset)))
  {
    var f := Formats[i];
    var input := RenderInput(f, t, padHour, z);
    TryOwn(f, t, padHour, z, localOffset);
    forall j | 0 <= j < i
      ensures TryFormat(Formats[j], input, localOffset).None?
    {
      FormatsGiveWay(i, j);
      TryEarlier(Formats[j], f, t, padHour, z, localOffset);
    }
    LocalItemsSeparated(f);
    RenderStart(LocalItems(f), t, padHour);
    assert IsDigit(input[0]);
    NowSpellings(input);
  }
}

=== FILE: iso.dfy ===
/**
 * The stored form of a calibration instant: `datetime.isoformat()` of an
 * aware date-time with a whole-minute offset, and `datetime.fromisoformat`
 * for the strings of that shape,
 * `YYYY-MM-DDTHH:MM:SS[.ffffff]+HH:MM` (the fraction only when the
 * microseconds are not zero).
 */
module Iso {
  import opened Wrappers
  import opened Text
  import opened Civil

  /** A fixed-width number, a literal character, or the offset's sign. */
  datatype Token = Num(width: nat) | Lit(c: char) | Sign

  /**
   * Values that fit a template position by position: a number below
   * `10^width`, 0 or 1 for the sign (1 is negative), 0 for a literal.
   */
  predicate Fits(tpl: seq<Token>, vals: seq<int>) {
    |vals| == |tpl| &&
    forall i :: 0 <= i < |tpl| ==>
      match tpl[i]
      case Num(w) => 0 <= vals[i] < Pow10(w)
      case Lit(_) => vals[i] == 0
      case Sign => 0 <= vals[i] <= 1
  }

  function Piece(x: Token, v: int): string
    requires x.Num? ==> 0 <= v
  {
    if x.Num? then FixedDigits(v, x.width)
    else if x.Lit? then [x.c]
    else if v == 1 then "-" else "+"
  }

  /** The text a template writes for the values from position `i` on. */
  function Fill(tpl: seq<Token>, vals: seq<int>, i: nat): string
    requires Fits(tpl, vals) && i <= |tpl|
    decreases |tpl| - i
  {
    if i == |tpl| then "" else Piece(tpl[i], vals[i]) + Fill(tpl, vals, i + 1)
  }

  function TokenWidth(x: Token): nat {
    if x.Num? then x.width else 1
  }

  /** The length of what a template writes from position `i` on. */
  function Length(tpl: seq<Token>, i: nat): nat
    requires i <= |tpl|
    decreases |tpl| - i
  {
    if i == |tpl| then 0 else TokenWidth(tpl[i]) + Length(tpl, i + 1)
  }

  /**
   * Reads `s` against the template from position `i` on, to the end of `s`;
   * the values are those of positions `i` onwards.
   */
  function Scan(tpl: seq<Token>, s: string, i: nat): (r: Option<seq<int>>)
    requires i <= |tpl|
    ensures r.Some? ==> Fits(tpl[i..], r.value) && |s| == Length(tpl, i)
    decreases |tpl| - i
  {
    if i == |tpl| then (if s == [] then Some([]) else None)
    else
      var x := tpl[i];
      var n := if x.Num? then x.width else 1;
      if |s| < n then None
      else if x.Num? && !AllDigits(s[..n]) then None
      else if x.Lit? && s[0] != x.c then None
      else if x.Sign? && s[0] != '+' && s[0] != '-' then None
      else
        var v: int :=
          if x.Num? then DigitsValue(s[..n])
          else if x.Lit? then 0
          else if s[0] == '-' then 1 else 0;
        assert x.Num? ==> v < Pow10(x.width) by {
          if x.Num? { DigitsValueBound(s[..n]); }
        }
        match Scan(tpl, s[n..], i + 1)
        case None => None
        case Some(vs) =>
          assert tpl[i..] == [x] + tpl[i + 1..];
          Some([v] + vs)
  }

  lemma PieceLength(x: Token, v: int)
    requires x.Num? ==> 0 <= v
    ensures |Piece(x, v)| == TokenWidth(x)
  {
  }

  lemma {:induction false} FillLength(tpl: seq<Token>, vals: seq<int>, i: nat)
    requires Fits(tpl, vals) && i <= |tpl|
    ensures |Fill(tpl, vals, i)| == Length(tpl, i)
    decreases |tpl| - i
  {
    if i < |tpl| {
      PieceLength(tpl[i], vals[i]);
      FillLength(tpl, vals, i + 1);
    }
  }

  /** Reading back what a template wrote gives the values it was given. */
  lemma {:induction false} ScanFill(tpl: seq<Token>, vals: seq<int>, i: nat)
    requires Fits(tpl, vals) && i <= |tpl|
    ensures Scan(tpl, Fill(tpl, vals, i), i) == Some(vals[i..])
    decreases |tpl| - i
  {
    if i < |tpl| {
      var rest := Fill(tpl, vals, i + 1);
      ScanFill(tpl, vals, i + 1);
      assert Fill(tpl, vals, i) == Piece(tpl[i], vals[i]) + rest;
      ScanPiece(tpl, vals, i, rest);
      SliceCons(vals, i);
    } else {
      assert vals[i..] == [];
    }
  }

  lemma SliceCons(vals: seq<int>, i: nat)
    requires i < |vals|
    ensures vals[i..] == [vals[i]] + vals[i + 1..]
  {
  }

  /** One position: the piece written for it is read back as its value. */
  lemma ScanPiece(tpl: seq<Token>, vals: seq<int>, i: nat, rest: string)
    requires Fits(tpl, vals) && i < |tpl|
    requires Scan(tpl, rest, i + 1).Some?
    ensures Scan(tpl, Piece(tpl[i], vals[i]) + rest, i) == Some([vals[i]] + Scan(tpl, rest, i + 1).value)
  {
    var x := tpl[i];
    var v := vals[i];
    var p := Piece(x, v);
    var s := p + rest;
    PieceLength(x, v);
    assert s[..|p|] == p && s[|p|..] == rest;
    if x.Num? {
      FixedDigitsRoundTrip(v, x.width);
    }
  }

  /**
   * `YYYY-MM-DDTHH:MM:SS+HH:MM`, or with the fraction,
   * `YYYY-MM-DDTHH:MM:SS.ffffff+HH:MM`.
   */
  function Template(withFraction: bool): seq<Token> {
    DateTemplate() + FractionTemplate(withFraction) + OffsetTemplate()
  }

  function DateTemplate(): seq<Token> {
    [Num(4), Lit('-'), Num(2), Lit('-'), Num(2), Lit('T'), Num(2), Lit(':'), Num(2), Lit(':'), Num(2)]
  }

  function FractionTemplate(withFraction: bool): seq<Token> {
    if withFraction then [Lit('.'), Num(6)] else []
  }

  function OffsetTemplate(): seq<Token> {
    [Sign, Num(2), Lit(':'), Num(2)]
  }

  /** The two templates token by token. */
  lemma TemplateSpelled()
    ensures Template(false) ==
      [Num(4), Lit('-'), Num(2), Lit('-'), Num(2), Lit('T'), Num(2), Lit(':'), Num(2), Lit(':'), Num(2),
       Sign, Num(2), Lit(':'), Num(2)]
    ensures Template(true) ==
      [Num(4), Lit('-'), Num(2), Lit('-'), Num(2), Lit('T'), Num(2), Lit(':'), Num(2), Lit(':'), Num(2),
       Lit('.'), Num(6), Sign, Num(2), Lit(':'), Num(2)]
  {
  }

  /** The values `isoformat` writes for an aware date-time, position by position. */
  function IsoValues(a: Aware): (vals: seq<int>)
    requires ValidAware(a)
  {
    DateValues(a.local) + FractionValues(a.local) + OffsetValues(a.offset)
  }

  function DateValues(t: DateTime): seq<int> {
    [t.year, 0, t.month, 0, t.day, 0, t.hour, 0, t.minute, 0, t.second]
  }

  /** The fraction is written only when the microseconds are not zero. */
  function FractionValues(t: DateTime): seq<int> {
    if t.micro != 0 then [0, t.micro] else []
  }

  /** The sign (1 for west of UTC), the hours and the minutes of an offset. */
  function OffsetValues(offset: int): seq<int> {
    var m := if offset < 0 then -offset else offset;
    [if offset < 0 then 1 else 0, m / 60, 0, m % 60]
  }

  lemma IsoValuesFit(a: Aware)
    requires ValidAware(a)
    ensures Fits(Template(a.local.micro != 0), IsoValues(a))
  {
    var t := a.local;
    assert Pow10(2) == 100 && Pow10(4) == 10000 && Pow10(6) == 1000000;
    FitsConcat(DateTemplate(), FractionTemplate(t.micro != 0), OffsetTemplate(),
      DateValues(t), FractionValues(t), OffsetValues(a.offset));
  }

  lemma FitsConcat(p: seq<Token>, q: seq<Token>, r: seq<Token>, u: seq<int>, v: seq<int>, w: seq<int>)
    requires Fits(p, u) && Fits(q, v) && Fits(r, w)
    ensures Fits(p + q + r, u + v + w)
  {
    var tpl := p + q + r;
    var vals := u + v + w;
    forall i | 0 <= i < |tpl|
      ensures match tpl[i]
        case Num(n) => 0 <= vals[i] < Pow10(n)
        case Lit(_) => vals[i] == 0
        case Sign => 0 <= vals[i] <= 1
    {
      if i < |p| {
        assert tpl[i] == p[i] && vals[i] == u[i];
      } else if i < |p| + |q| {
        assert tpl[i] == q[i - |p|] && vals[i] == v[i - |p|];
      } else {
        assert tpl[i] == r[i - |p| - |q|] && vals[i] == w[i - |p| - |q|];
      }
    }
  }

  /** `a.isoformat()`. */
  function IsoFormat(a: Aware): string
    requires ValidAware(a)
  {
    IsoValuesFit(a);
    Fill(Template(a.local.micro != 0), IsoValues(a), 0)
  }

  /** The aware date-time the values read from a template denote, when they are in range. */
  function FromValues(v: seq<int>, withFraction: bool): (r: Option<Aware>)
    requires |v| == |Template(withFraction)|
    ensures r.Some? ==> ValidAware(r.value)
  {
    var k := if withFraction then 13 else 11;
    var micro := if withFraction then v[12] else 0;
    var t := DateTime(v[0], v[2], v[4], v[6], v[8], v[10], micro);
    var offset := (if v[k] == 1 then -1 else 1) * (v[k + 1] * 60 + v[k + 3]);
    if ValidDateTime(t) && 0 <= v[k + 1] < 24 && 0 <= v[k + 3] < 60
    then Some(Aware(t, offset))
    else None
  }

  /**
   * `datetime.fromisoformat(s)` for strings of the shape `isoformat`
   * writes; `None` stands for its `ValueError`.
   */
  function IsoParse(s: string): (r: Option<Aware>)
    ensures r.Some? ==> ValidAware(r.value)
  {
    match Scan(Template(false), s, 0)
    case Some(v) => FromValues(v, false)
    case None =>
      match Scan(Template(true), s, 0)
      case Some(v) => FromValues(v, true)
      case None => None
  }

  /** The fraction `.ffffff` makes the template seven characters longer. */
  lemma TemplateLengths()
    ensures Length(Template(true), 0) == Length(Template(false), 0) + 7
  {
    var p := DateTemplate();
    var q := OffsetTemplate();
    var f := FractionTemplate(true);
    assert Template(false) == p + q;
    assert Template(true) == (p + f) + q;
    LengthConcat(p, q, 0);
    LengthConcat(p + f, q, 0);
    LengthConcat(p, f, 0);
    assert Length(f, 0) == 7;
  }

  /** What a concatenation of templates writes is as long as what each part writes. */
  lemma {:induction false} LengthConcat(p: seq<Token>, q: seq<Token>, i: nat)
    requires i <= |p|
    ensures Length(p + q, i) == Length(p, i) + Length(q, 0)
    decreases |p| - i
  {
    if i == |p| {
      LengthTail(p, q, 0);
    } else {
      assert (p + q)[i] == p[i];
      LengthConcat(p, q, i + 1);
    }
  }

  lemma {:induction false} LengthTail(p: seq<Token>, q: seq<Token>, j: nat)
    requires j <= |q|
    ensures Length(p + q, |p| + j) == Length(q, j)
    decreases |q| - j
  {
    if j < |q| {
      assert (p + q)[|p| + j] == q[j];
      LengthTail(p, q, j + 1);
    }
  }

  lemma IsoScan(a: Aware)
    requires ValidAware(a)
    ensures Scan(Template(a.local.micro != 0), IsoFormat(a), 0) == Some(IsoValues(a))
    ensures |IsoFormat(a)| == Length(Template(a.local.micro != 0), 0)
  {
    var tpl := Template(a.local.micro != 0);
    var vals := IsoValues(a);
    IsoValuesFit(a);
    ScanFill(tpl, vals, 0);
    FillLength(tpl, vals, 0);
    assert vals[0..] == vals;
  }

  lemma IsoValuesBack(a: Aware)
    requires ValidAware(a)
    ensures |IsoValues(a)| == |Template(a.local.micro != 0)|
    ensures FromValues(IsoValues(a), a.local.micro != 0) == Some(a)
  {
    var m := if a.offset < 0 then -a.offset else a.offset;
    assert (m / 60) * 60 + m % 60 == m;
  }

  /** `fromisoformat(a.isoformat()) == a` for every aware date-time with a whole-minute offset. */
  lemma IsoRoundTrip(a: Aware)
    requires ValidAware(a)
    ensures IsoParse(IsoFormat(a)) == Some(a)
  {
    var s := IsoFormat(a);
    IsoScan(a);
    IsoValuesBack(a);
    TemplateLengths();
    if a.local.micro != 0 {
      assert Scan(Template(false), s, 0) == None;
    }
  }
}

=== FILE: refresh.dfy ===
/**
 * The next-refresh calculator: refreshes fall on a grid of 5-hour steps
 * anchored at the calibration instant, reaching into the past and the
 * future alike. Instants are epoch microseconds; both the anchor and the
 * current time are taken already converted to UTC.
 */
module Refresh {
  import opened Civil

  /** The refresh interval, `timedelta(hours=5)`. */
  const Period: int := 5 * MicrosPerHour

  /** `t` is one of the refresh boundaries anchored at `anchor`. */
  predicate OnGrid(anchor: int, t: int) {
    (t - anchor) % Period == 0
  }

  /**
   * `get_next_refresh_time`: with `elapsed = now - anchor` and
   * `k = elapsed // Period` (floor division, also for a negative elapsed),
   * the answer is `now` itself when `now` sits on a boundary, and otherwise
   * the boundary `anchor + Period * (k + 1)`.
   */
  function NextRefresh(anchor: int, now: int): (next: int)
    ensures now <= next < now + Period
    ensures OnGrid(anchor, next)
    ensures OnGrid(anchor, now) ==> next == now
  {
    var elapsed := now - anchor;
    var k := elapsed / Period;
    if elapsed % Period == 0 then now
    else anchor + Period * (k + 1)
  }

  /**
   * The reference definition of the next refresh: a boundary at or after
   * `now` with no boundary at or after `now` before it.
   */
  ghost predicate IsNextBoundary(anchor: int, now: int, t: int) {
    && OnGrid(anchor, t)
    && now <= t
    && forall u :: OnGrid(anchor, u) && now <= u ==> t <= u
  }

  /** Boundaries are exactly the instants `anchor + Period * j`, for any integer j. */
  lemma OnGridIff(anchor: int, t: int)
    ensures OnGrid(anchor, t) <==> exists j :: t == anchor + Period * j
  {
    if OnGrid(anchor, t) {
      assert t == anchor + Period * ((t - anchor) / Period);
    }
    if exists j :: t == anchor + Period * j {
      var j :| t == anchor + Period * j;
      assert (t - anchor) % Period == (Period * j) % Period == 0;
    }
  }

  /** Two boundaries closer than a period are the same boundary. */
  lemma {:induction false} BoundariesAPeriodApart(anchor: int, t: int, u: int)
    requires OnGrid(anchor, t) && OnGrid(anchor, u)
    requires t <= u < t + Period
    ensures t == u
  {
    var q := (t - anchor) / Period;
    var r := (u - anchor) / Period;
    assert t - anchor == Period * q;
    assert u - anchor == Period * r;
    assert q <= r < q + 1;
  }

  /** The calculator computes the reference definition, and nothing else does. */
  lemma NextRefreshIsNextBoundary(anchor: int, now: int, t: int)
    ensures IsNextBoundary(anchor, now, NextRefresh(anchor, now))
    ensures IsNextBoundary(anchor, now, t) ==> t == NextRefresh(anchor, now)
  {
    var next := NextRefresh(anchor, now);
    forall u | OnGrid(anchor, u) && now <= u
      ensures next <= u
    {
      if u < next {
        BoundariesAPeriodApart(anchor, u, next);
      }
    }
    if IsNextBoundary(anchor, now, t) {
      if t < next {
        BoundariesAPeriodApart(anchor, t, next);
      }
    }
  }

  /**
   * Asking again at the refresh instant gives the same instant: a boundary
   * that has just been reached is "happening now", not 5 hours away.
   */
  lemma NextRefreshIdempotent(anchor: int, now: int)
    ensures NextRefresh(anchor, NextRefresh(anchor, now)) == NextRefresh(anchor, now)
  {
  }

  /** Any anchor on the same grid gives the same refreshes. */
  lemma {:induction false} NextRefreshAnchorShift(anchor: int, j: int, now: int)
    ensures NextRefresh(anchor + Period * j, now) == NextRefresh(anchor, now)
  {
    var a' := anchor + Period * j;
    var x := NextRefresh(anchor, now);
    var y := NextRefresh(a', now);
    GridShift(anchor, j, x);
    GridShift(anchor, j, y);
    if x < y {
      BoundariesAPeriodApart(a', x, y);
    } else if y < x {
      BoundariesAPeriodApart(anchor, y, x);
    }
  }

  /** Shifting the anchor by whole periods keeps the grid. */
  lemma GridShift(anchor: int, j: int, t: int)
    ensures OnGrid(anchor + Period * j, t) <==> OnGrid(anchor, t)
  {
    var d := t - anchor;
    assert t - (anchor + Period * j) == d - Period * j;
    assert (d - Period * j) % Period == d % Period by {
      assert d == Period * (d / Period) + d % Period;
      assert d - Period * j == Period * (d / Period - j) + d % Period;
    }
  }

  /** A later question never gets an earlier answer. */
  lemma NextRefreshMonotonic(anchor: int, now: int, later: int)
    requires now <= later
    ensures NextRefresh(anchor, now) <= NextRefresh(anchor, later)
  {
    var t := NextRefresh(anchor, later);
    NextRefreshIsNextBoundary(anchor, now, t);
  }
}

=== FILE: strptime.dfy ===
/**
 * The part of `datetime.strptime` that the input parser exercises: the
 * directives `%Y %m %d %H %I %M %p`, literal characters, and format
 * whitespace (which matches one or more whitespace characters). A format
 * is given in compiled form, as a sequence of items; the items are matched
 * against the whole input; the captured fields build a naive date-time,
 * which must exist.
 *
 * Each numeric field takes the whole run of digits in front of it and
 * succeeds when that run is one the field's regular expression accepts.
 * This agrees with the backtracking regular expression as long as no two
 * numeric fields are adjacent, which holds for every format the tool uses.
 */
module Strptime {
  import opened Wrappers
  import opened Text
  import opened Civil

  datatype Directive = Year | Month | Day | Hour24 | Hour12 | Minute | AmPm

  datatype Item = Field(d: Directive) | Literal(c: char) | Blank

  /** The captured fields, as `found_dict` holds them; `AmPm` is 0 for AM, 1 for PM. */
  type Captures = map<Directive, int>

  /** The values a numeric field's regular expression admits, by run length and value. */
  predicate Admits(d: Directive, len: nat, v: int) {
    match d
    case Year => len == 4
    case Month => 1 <= len <= 2 && 1 <= v <= 12
    case Day => 1 <= len <= 2 && 1 <= v <= 31
    case Hour24 => 1 <= len <= 2 && 0 <= v <= 23
    case Hour12 => 1 <= len <= 2 && 1 <= v <= 12
    case Minute => 1 <= len <= 2 && 0 <= v <= 59
    case AmPm => false
  }

  /** The range each captured field lies in. */
  predicate InRange(d: Directive, v: int) {
    match d
    case Year => 0 <= v <= 9999
    case Month => 1 <= v <= 12
    case Day => 1 <= v <= 31
    case Hour24 => 0 <= v <= 23
    case Hour12 => 1 <= v <= 12
    case Minute => 0 <= v <= 59
    case AmPm => 0 <= v <= 1
  }

  ghost predicate WellRanged(c: Captures) {
    forall d :: d in c ==> InRange(d, c[d])
  }

  /**
   * How much of `s` a numeric field consumes, and its value. `%d` and `%I`
   * also accept a space followed by a single non-zero digit.
   */
  function FieldSpan(d: Directive, s: string): (r: Option<(nat, int)>)
    requires d != AmPm
    ensures r.Some? ==> r.value.0 <= |s| && InRange(d, r.value.1)
    // What is consumed: the whole digit run, read as a decimal number the
    // field admits, or (for `%d`/`%I`) a space and one non-zero digit.
    ensures r.Some? ==>
      (r.value.0 == DigitRun(s) && r.value.1 == DigitsValue(s[..DigitRun(s)])
        && Admits(d, r.value.0, r.value.1))
      || ((d == Day || d == Hour12) && r.value.0 == 2 && s[0] == ' ' && IsDigit(s[1])
        && r.value.1 == DigitValue(s[1]) && r.value.1 >= 1)
    // A digit run the field admits is always taken.
    ensures Admits(d, DigitRun(s), DigitsValue(s[..DigitRun(s)])) ==> r.Some?
  {
    if (d == Day || d == Hour12) && |s| >= 2 && s[0] == ' ' && '1' <= s[1] <= '9'
       && (|s| == 2 || !IsDigit(s[2]))
    then Some((2, DigitValue(s[1])))
    else
      var n := DigitRun(s);
      var v := DigitsValue(s[..n]);
      assert n == 4 ==> v < 10000 by {
        if n == 4 { DigitsValueBound(s[..n]); }
      }
      if Admits(d, n, v) then Some((n, v)) else None
  }

  /**
   * Matches the items against the whole of `s` (a match that leaves input
   * over is "unconverted data remains"). Letters match in either case.
   */
  function Match(items: seq<Item>, s: string): (r: Option<Captures>)
    ensures r.Some? ==> WellRanged(r.value)
    decreases |items|
  {
    if items == [] then (if s == [] then Some(map[]) else None)
    else
      match items[0]
      case Literal(c) =>
        if s != [] && LowerChar(s[0]) == LowerChar(c) then Match(items[1..], s[1..]) else None
      case Blank =>
        var n := SpaceRun(s);
        if n == 0 then None else Match(items[1..], s[n..])
      case Field(AmPm) =>
        if |s| >= 2 && LowerChar(s[1]) == 'm' && (LowerChar(s[0]) == 'a' || LowerChar(s[0]) == 'p')
        then Bind(Match(items[1..], s[2..]), AmPm, if LowerChar(s[0]) == 'a' then 0 else 1)
        else None
      case Field(d) =>
        match FieldSpan(d, s)
        case None => None
        case Some((n, v)) => Bind(Match(items[1..], s[n..]), d, v)
  }

  function Bind(r: Option<Captures>, d: Directive, v: int): Option<Captures> {
    match r
    case None => None
    case Some(c) => Some(c[d := v])
  }

  /** `%I` with `%p`: 12 AM is hour 0, 12 PM is hour 12, other PM hours add 12. */
  function Hour12To24(h: int, pm: bool): int {
    if !pm then (if h == 12 then 0 else h)
    else (if h == 12 then 12 else h + 12)
  }

  /** The clock-face hour `strftime('%I')` shows for a 24-hour hour. */
  function Hour24To12(h: int): int {
    if h % 12 == 0 then 12 else h % 12
  }

  /** The twelve-hour reading is a one-to-one relabelling of the 24 hours of the day. */
  lemma Hour12RoundTrip(h: int, h12: int, pm: bool)
    ensures 0 <= h < 24 ==> 1 <= Hour24To12(h) <= 12 && Hour12To24(Hour24To12(h), h >= 12) == h
    ensures 1 <= h12 <= 12 ==>
      var h24 := Hour12To24(h12, pm);
      0 <= h24 < 24 && (h24 >= 12 <==> pm) && Hour24To12(h24) == h12
  {
  }

  /**
   * The naive date-time built from the captured fields. Missing fields take
   * `strptime`'s defaults (1900-01-01 00:00); a `%I` hour without `%p`
   * counts as AM; the date must exist.
   */
  function Build(c: Captures): (r: Option<DateTime>)
    requires WellRanged(c)
    ensures r.Some? ==> ValidDateTime(r.value) && r.value.second == 0 && r.value.micro == 0
  {
    var year := if Year in c then c[Year] else 1900;
    var month := if Month in c then c[Month] else 1;
    var day := if Day in c then c[Day] else 1;
    var hour :=
      if Hour12 in c then Hour12To24(c[Hour12], AmPm in c && c[AmPm] == 1)
      else if Hour24 in c then c[Hour24]
      else 0;
    var minute := if Minute in c then c[Minute] else 0;
    if ValidDate(year, month, day) then Some(DateTime(year, month, day, hour, minute, 0, 0))
    else None
  }

  /** `datetime.strptime(s, fmt)` for the compiled format, with `None` for its `ValueError`. */
  function Parse(s: string, items: seq<Item>): (r: Option<DateTime>)
    ensures r.Some? ==> ValidDateTime(r.value) && r.value.second == 0 && r.value.micro == 0
  {
    match Match(items, s)
    case None => None
    case Some(c) => Build(c)
  }

  // ---------------------------------------------------------------------
  // Writing a date-time in a format (what `strftime` does for these
  // directives, optionally with the hour unpadded as people type it) and
  // reading it back.

  /** The value `strftime` writes for a field. */
  function FieldValue(d: Directive, t: DateTime): int {
    match d
    case Year => t.year
    case Month => t.month
    case Day => t.day
    case Hour24 => t.hour
    case Hour12 => Hour24To12(t.hour)
    case Minute => t.minute
    case AmPm => if t.hour >= 12 then 1 else 0
  }

  function Width(d: Directive): nat {
    if d == Year then 4 else 2
  }

  /**
   * The digits written for a numeric field: zero-padded to its width, except
   * that an hour is written without padding when `padHour` is false
   * ("3:00 PM" rather than "03:00 PM").
   */
  function NumText(d: Directive, v: nat, padHour: bool): string {
    if !padHour && (d == Hour12 || d == Hour24) then Decimal(v) else FixedDigits(v, Width(d))
  }

  function RenderItem(x: Item, t: DateTime, padHour: bool): string
    requires ValidDateTime(t)
  {
    match x
    case Literal(c) => [c]
    case Blank => " "
    case Field(AmPm) => if t.hour >= 12 then "PM" else "AM"
    case Field(d) =>
      Hour12RoundTrip(t.hour, 1, false);
      NumText(d, FieldValue(d, t), padHour)
  }

  /** `t.strftime(fmt)` for the compiled format. */
  function Render(items: seq<Item>, t: DateTime, padHour: bool): string
    requires ValidDateTime(t)
    decreases |items|
  {
    if items == [] then "" else RenderItem(items[0], t, padHour) + Render(items[1..], t, padHour)
  }

  lemma {:induction false} RenderAppend(p: seq<Item>, q: seq<Item>, t: DateTime, padHour: bool)
    requires ValidDateTime(t)
    ensures Render(p + q, t, padHour) == Render(p, t, padHour) + Render(q, t, padHour)
    decreases |p|
  {
    if p == [] {
      assert p + q == q;
    } else {
      assert (p + q)[1..] == p[1..] + q;
      RenderAppend(p[1..], q, t, padHour);
    }
  }

  /** The fields a rendering writes, as matching captures them. */
  function CapturesOf(items: seq<Item>, t: DateTime): Captures
    decreases |items|
  {
    if items == [] then map[]
    else match items[0]
      case Field(d) => CapturesOf(items[1..], t)[d := FieldValue(d, t)]
      case _ => CapturesOf(items[1..], t)
  }

  predicate IsNumeric(x: Item) {
    x.Field? && x.d != AmPm
  }

  /**
   * Formats whose renderings can be read back unambiguously: literals are
   * neither digits nor whitespace, blanks are not doubled, and a numeric
   * field is never followed by another numeric field.
   */
  predicate Separated(items: seq<Item>) {
    && (forall i :: 0 <= i < |items| && items[i].Literal? ==>
          !IsDigit(items[i].c) && !IsSpace(items[i].c))
    && (forall i :: 0 <= i < |items| - 1 && items[i].Blank? ==> !items[i + 1].Blank?)
    && (forall i :: 0 <= i < |items| - 1 && IsNumeric(items[i]) ==> !IsNumeric(items[i + 1]))
  }

  /** A format ending in a blank and one not starting with a blank join into a separated format. */
  lemma SeparatedJoin(p: seq<Item>, q: seq<Item>)
    requires Separated(p) && Separated(q)
    requires p != [] && p[|p| - 1].Blank? && q != [] && !q[0].Blank?
    ensures Separated(p + q)
  {
    var s := p + q;
    forall i | 0 <= i < |s| - 1 && s[i].Blank?
      ensures !s[i + 1].Blank?
    {
      if i < |p| - 1 {
        assert s[i] == p[i] && s[i + 1] == p[i + 1];
      } else if i >= |p| {
        assert s[i] == q[i - |p|] && s[i + 1] == q[i + 1 - |p|];
      }
    }
    forall i | 0 <= i < |s| - 1 && IsNumeric(s[i])
      ensures !IsNumeric(s[i + 1])
    {
      if i < |p| - 1 {
        assert s[i] == p[i] && s[i + 1] == p[i + 1];
      } else if i >= |p| {
        assert s[i] == q[i - |p|] && s[i + 1] == q[i + 1 - |p|];
      }
    }
    forall i | 0 <= i < |s| && s[i].Literal?
      ensures !IsDigit(s[i].c) && !IsSpace(s[i].c)
    {
      if i < |p| {
        assert s[i] == p[i];
      } else {
        assert s[i] == q[i - |p|];
      }
    }
  }

  /** What may follow the rendering of `items` without running into its last field. */
  predicate CanFollow(items: seq<Item>, r: string) {
    r == [] || items == [] ||
    ((IsNumeric(items[|items| - 1]) ==> !IsDigit(r[0])) &&
     (items[|items| - 1].Blank? ==> !IsSpace(r[0])))
  }

  lemma NumTextDigits(d: Directive, v: nat, padHour: bool)
    requires d != AmPm && InRange(d, v)
    ensures var s := NumText(d, v, padHour);
      AllDigits(s) && 0 < |s| && (d == Year ==> |s| == 4) && (d != Year ==> |s| <= 2)
      && DigitsValue(s) == v
  {
    if !padHour && (d == Hour12 || d == Hour24) {
      DecimalRoundTrip(v);
      if v >= 10 {
        assert Decimal(v) == Decimal(v / 10) + [DigitChar(v % 10)];
      }
    } else {
      assert Pow10(2) == 100 && Pow10(4) == 10000;
      FixedDigitsRoundTrip(v, Width(d));
    }
  }

  lemma RenderStart(items: seq<Item>, t: DateTime, padHour: bool)
    requires ValidDateTime(t) && items != [] && Separated(items)
    ensures var s := Render(items, t, padHour);
      && |s| > 0
      && (IsNumeric(items[0]) <==> IsDigit(s[0]))
      && (items[0].Blank? <==> IsSpace(s[0]))
      && (items[0].Literal? ==> s[0] == items[0].c)
  {
    var x := items[0];
    var r := RenderItem(x, t, padHour);
    assert Render(items, t, padHour) == r + Render(items[1..], t, padHour);
    match x
    case Literal(c) =>
    case Blank =>
    case Field(d) =>
      if d != AmPm {
        Hour12RoundTrip(t.hour, 1, false);
        NumTextDigits(d, FieldValue(d, t), padHour);
        assert r[0] == NumText(d, FieldValue(d, t), padHour)[0];
      }
  }

  /** An item other than a blank writes a non-empty piece without whitespace. */
  lemma RenderItemWord(x: Item, t: DateTime, padHour: bool)
    requires ValidDateTime(t) && !x.Blank? && (x.Literal? ==> !IsSpace(x.c))
    ensures IsWord(RenderItem(x, t, padHour))
  {
    if x.Field? && x.d != AmPm {
      Hour12RoundTrip(t.hour, 1, false);
      NumTextDigits(x.d, FieldValue(x.d, t), padHour);
    }
  }

  /** Items without blanks or whitespace literals write a single word. */
  lemma {:induction false} RenderWord(items: seq<Item>, t: DateTime, padHour: bool)
    requires ValidDateTime(t) && items != []
    requires forall i :: 0 <= i < |items| ==>
      !items[i].Blank? && (items[i].Literal? ==> !IsSpace(items[i].c))
    ensures IsWord(Render(items, t, padHour))
    decreases |items|
  {
    RenderItemWord(items[0], t, padHour);
    if |items| > 1 {
      RenderWord(items[1..], t, padHour);
    }
  }

  /** A numeric field reads back the value that was written for it. */
  lemma FieldSpanOfText(d: Directive, v: nat, padHour: bool, rest: string)
    requires d != AmPm && InRange(d, v)
    requires rest == [] || !IsDigit(rest[0])
    ensures FieldSpan(d, NumText(d, v, padHour) + rest) == Some((|NumText(d, v, padHour)|, v))
  {
    var digits := NumText(d, v, padHour);
    var s := digits + rest;
    NumTextDigits(d, v, padHour);
    DigitRunOfDigits(digits, rest);
    assert s[..|digits|] == digits;
  }

  lemma {:induction false} DigitRunOfDigits(digits: string, rest: string)
    requires AllDigits(digits)
    requires rest == [] || !IsDigit(rest[0])
    ensures DigitRun(digits + rest) == |digits|
    decreases |digits|
  {
    if digits == [] {
      assert digits + rest == rest;
    } else {
      assert (digits + rest)[1..] == digits[1..] + rest;
      DigitRunOfDigits(digits[1..], rest);
    }
  }

  /** A format whose first numeric field finds nothing it accepts reads nothing. */
  lemma MatchHeadFails(items: seq<Item>, s: string)
    requires items != [] && IsNumeric(items[0]) && FieldSpan(items[0].d, s) == None
    ensures Match(items, s) == None
  {
  }

  /** The captures of a match, extended by `m`. */
  function Extend(r: Option<Captures>, m: Captures): Option<Captures> {
    match r
    case None => None
    case Some(c) => Some(c + m)
  }

  /** One item reads back what it wrote, when what follows cannot be taken for more of it. */
  lemma MatchItemThen(x: Item, rest: seq<Item>, t: DateTime, padHour: bool, rt: string)
    requires ValidDateTime(t)
    requires x.Literal? ==> !IsDigit(x.c) && !IsSpace(x.c)
    requires CanFollow([x], rt)
    ensures Match([x] + rest, RenderItem(x, t, padHour) + rt) ==
      Extend(Match(rest, rt), CapturesOf([x], t))
  {
    assert CapturesOf([x], t) == CapturesOf([x][1..], t) + CapturesOf([x], t);
    assert [x][1..] == [];
    match x
    case Literal(c) =>
      MatchSeparatorThen(x, rest, t, padHour, rt);
      assert Match(rest, rt).Some? ==> Match(rest, rt).value + map[] == Match(rest, rt).value;
    case Blank =>
      MatchSeparatorThen(x, rest, t, padHour, rt);
      assert Match(rest, rt).Some? ==> Match(rest, rt).value + map[] == Match(rest, rt).value;
    case Field(AmPm) => MatchAmPmThen(rest, t, padHour, rt);
    case Field(d) => MatchNumberThen(d, rest, t, padHour, rt);
  }

  lemma MatchSeparatorThen(x: Item, rest: seq<Item>, t: DateTime, padHour: bool, rt: string)
    requires ValidDateTime(t) && !x.Field?
    requires x.Literal? ==> !IsDigit(x.c) && !IsSpace(x.c)
    requires CanFollow([x], rt)
    ensures Match([x] + rest, RenderItem(x, t, padHour) + rt) == Match(rest, rt)
  {
    var s := RenderItem(x, t, padHour) + rt;
    assert ([x] + rest)[0] == x && ([x] + rest)[1..] == rest;
    assert s[1..] == rt;
    if x.Blank? {
      assert s[0] == ' ';
      assert SpaceRun(s) == 1;
    }
  }

  lemma MatchAmPmThen(rest: seq<Item>, t: DateTime, padHour: bool, rt: string)
    requires ValidDateTime(t)
    ensures Match([Field(AmPm)] + rest, RenderItem(Field(AmPm), t, padHour) + rt) ==
      Extend(Match(rest, rt), map[AmPm := FieldValue(AmPm, t)])
  {
    var s := RenderItem(Field(AmPm), t, padHour) + rt;
    assert ([Field(AmPm)] + rest)[0] == Field(AmPm) && ([Field(AmPm)] + rest)[1..] == rest;
    assert s[2..] == rt;
    assert LowerChar(s[1]) == 'm';
    assert LowerChar(s[0]) == (if t.hour >= 12 then 'p' else 'a');
    if Match(rest, rt).Some? {
      var c := Match(rest, rt).value;
      assert c[AmPm := FieldValue(AmPm, t)] == c + map[AmPm := FieldValue(AmPm, t)];
    }
  }

  lemma MatchNumberThen(d: Directive, rest: seq<Item>, t: DateTime, padHour: bool, rt: string)
    requires ValidDateTime(t) && d != AmPm
    requires CanFollow([Field(d)], rt)
    ensures Match([Field(d)] + rest, RenderItem(Field(d), t, padHour) + rt) ==
      Extend(Match(rest, rt), map[d := FieldValue(d, t)])
  {
    var x := Field(d);
    var s := RenderItem(x, t, padHour) + rt;
    assert ([x] + rest)[0] == x && ([x] + rest)[1..] == rest;
    Hour12RoundTrip(t.hour, 1, false);
    FieldSpanOfText(d, FieldValue(d, t), padHour, rt);
    assert s[|NumText(d, FieldValue(d, t), padHour)|..] == rt;
    if Match(rest, rt).Some? {
      var c := Match(rest, rt).value;
      assert c[d := FieldValue(d, t)] == c + map[d := FieldValue(d, t)];
    }
  }

  lemma CapturesOfCons(p: seq<Item>, t: DateTime)
    requires p != []
    ensures CapturesOf(p, t) == CapturesOf(p[1..], t) + CapturesOf([p[0]], t)
  {
    assert [p[0]][1..] == [];
  }

  /** Within a separated format, each item's rendering is followed by what cannot extend it. */
  lemma FollowsHead(p: seq<Item>, t: DateTime, padHour: bool, r: string)
    requires ValidDateTime(t) && p != [] && Separated(p) && CanFollow(p, r)
    ensures CanFollow([p[0]], Render(p[1..], t, padHour) + r)
  {
    var tail := p[1..];
    if tail != [] {
      RenderStart(tail, t, padHour);
      assert (Render(tail, t, padHour) + r)[0] == Render(tail, t, padHour)[0];
      assert p[1] == tail[0];
    }
  }

  /**
   * Reading a rendering of `p` followed by text `r`, with the format `p`
   * followed by `q`: the rendering is consumed exactly, capturing the
   * fields that were written, and what happens next is up to `q` and `r`.
   */
  lemma {:induction false} MatchRenderThen(p: seq<Item>, q: seq<Item>, t: DateTime, padHour: bool, r: string)
    requires ValidDateTime(t) && Separated(p) && CanFollow(p, r)
    ensures Match(p + q, Render(p, t, padHour) + r) == Extend(Match(q, r), CapturesOf(p, t))
    decreases |p|
  {
    if p == [] {
      assert p + q == q;
      assert Render(p, t, padHour) + r == r;
      if Match(q, r).Some? {
        var c := Match(q, r).value;
        assert c + map[] == c;
      }
    } else {
      var x := p[0];
      var tail := p[1..];
      var rt := Render(tail, t, padHour) + r;
      assert Render(p, t, padHour) + r == RenderItem(x, t, padHour) + rt;
      assert p + q == [x] + (tail + q);
      SeparatedTail(p, r);
      FollowsHead(p, t, padHour, r);
      MatchItemThen(x, tail + q, t, padHour, rt);
      MatchRenderThen(tail, q, t, padHour, r);
      CapturesOfCons(p, t);
      ExtendTwice(Match(q, r), CapturesOf(tail, t), CapturesOf([x], t));
    }
  }

  lemma SeparatedTail(p: seq<Item>, r: string)
    requires p != [] && Separated(p) && CanFollow(p, r)
    ensures Separated(p[1..]) && CanFollow(p[1..], r)
    ensures p[0].Literal? ==> !IsDigit(p[0].c) && !IsSpace(p[0].c)
  {
  }

  lemma ExtendTwice(r: Option<Captures>, a: Captures, b: Captures)
    ensures Extend(Extend(r, a), b) == Extend(r, a + b)
  {
    if r.Some? {
      assert r.value + a + b == r.value + (a + b);
    }
  }

  /** The directives a format contains. */
  function DirectivesOf(items: seq<Item>): set<Directive>
    decreases |items|
  {
    if items == [] then {}
    else if items[0].Field? then {items[0].d} + DirectivesOf(items[1..])
    else DirectivesOf(items[1..])
  }

  lemma {:induction false} DirectivesOfIff(items: seq<Item>, d: Directive)
    ensures d in DirectivesOf(items) <==> Field(d) in items
    decreases |items|
  {
    if items != [] {
      DirectivesOfIff(items[1..], d);
      assert items == [items[0]] + items[1..];
    }
  }

  lemma {:induction false} CapturesOfKeys(items: seq<Item>, t: DateTime)
    ensures CapturesOf(items, t).Keys == DirectivesOf(items)
    ensures forall d :: d in CapturesOf(items, t) ==> CapturesOf(items, t)[d] == FieldValue(d, t)
    decreases |items|
  {
    if items != [] {
      CapturesOfKeys(items[1..], t);
    }
  }

  /**
   * Captures holding a whole-minute date-time's own fields — its date, its
   * minute, and its hour on the 24-hour clock or on the 12-hour clock with
   * AM/PM — build that date-time again.
   */
  lemma BuildCaptured(c: Captures, t: DateTime)
    requires ValidDateTime(t) && t.second == 0 && t.micro == 0
    requires {Year, Month, Day, Minute} <= c.Keys
    requires (Hour24 in c && Hour12 !in c) || (Hour12 in c && AmPm in c)
    requires forall d :: d in c ==> c[d] == FieldValue(d, t)
    ensures WellRanged(c) && Build(c) == Some(t)
  {
    Hour12RoundTrip(t.hour, 1, false);
    forall d | d in c
      ensures InRange(d, c[d])
    {
    }
  }

  /**
   * A format that names the date, the minute and the hour — on the 24-hour
   * clock, or on the 12-hour clock with AM/PM — reads back every whole-minute
   * date-time it writes: `strptime(t.strftime(fmt), fmt) == t`, with the
   * hour padded or not.
   */
  lemma ParseRender(items: seq<Item>, t: DateTime, padHour: bool)
    requires Separated(items)
    requires ValidDateTime(t) && t.second == 0 && t.micro == 0
    requires var ds := DirectivesOf(items);
      && {Year, Month, Day, Minute} <= ds
      && ((Hour24 in ds && Hour12 !in ds) || (Hour12 in ds && AmPm in ds))
    ensures Parse(Render(items, t, padHour), items) == Some(t)
  {
    MatchRenderThen(items, [], t, padHour, "");
    assert items + [] == items;
    assert Render(items, t, padHour) + "" == Render(items, t, padHour);
    CapturesOfKeys(items, t);
    assert map[] + CapturesOf(items, t) == CapturesOf(items, t);
    BuildCaptured(CapturesOf(items, t), t);
  }
}

=== FILE: text.dfy ===
/**
 * The pieces of Python's string handling that the refresh tool relies on:
 * character classes, ASCII case mapping, `str.split()` / `' '.join`,
 * `str(n)` and zero-padded fields.
 */
module Text {

  /** An ASCII decimal digit, the only kind of digit this model reads. */
  predicate IsDigit(c: char) {
    '0' <= c <= '9'
  }

  /**
   * A whitespace character in the sense of `str.isspace()`; the same set is
   * what `str.split()`, `str.strip()` and the regular-expression class `\s`
   * use on text.
   */
  predicate IsSpace(c: char) {
    || c == ' '
    || ('\t' <= c <= '\r')
    || ('\U{1C}' <= c <= '\U{1F}')
    || c == '\U{85}' || c == '\U{A0}' || c == '\U{1680}'
    || ('\U{2000}' <= c <= '\U{200A}')
    || c == '\U{2028}' || c == '\U{2029}' || c == '\U{202F}'
    || c == '\U{205F}' || c == '\U{3000}'
  }

  function DigitValue(c: char): (d: nat)
    requires IsDigit(c)
    ensures d < 10
  {
    c as int - '0' as int
  }

  function DigitChar(d: nat): (c: char)
    requires d < 10
    ensures IsDigit(c) && DigitValue(c) == d
  {
    ('0' as int + d) as char
  }

  predicate AllDigits(s: string) {
    forall i :: 0 <= i < |s| ==> IsDigit(s[i])
  }

  /** The number a string of digits spells, most significant digit first (`int(s)`). */
  function DigitsValue(s: string): nat
    requires AllDigits(s)
    decreases |s|
  {
    if s == [] then 0 else DigitsValue(s[..|s| - 1]) * 10 + DigitValue(s[|s| - 1])
  }

  function Pow10(w: nat): (p: nat)
    ensures p >= 1
  {
    if w == 0 then 1 else 10 * Pow10(w - 1)
  }

  /** The last `w` decimal digits of `n`, zero-padded on the left (`'%0*d' % (w, n)` for small n). */
  function FixedDigits(n: nat, w: nat): (s: string)
    ensures |s| == w && AllDigits(s)
  {
    if w == 0 then [] else FixedDigits(n / 10, w - 1) + [DigitChar(n % 10)]
  }

  /** Reading back a zero-padded field gives the number that was written. */
  lemma {:induction false} FixedDigitsRoundTrip(n: nat, w: nat)
    requires n < Pow10(w)
    ensures DigitsValue(FixedDigits(n, w)) == n
  {
    if w > 0 {
      var s := FixedDigits(n, w);
      FixedDigitsRoundTrip(n / 10, w - 1);
      assert s[..|s| - 1] == FixedDigits(n / 10, w - 1);
    }
  }

  /** A string of `w` digits spells a number below `10^w`. */
  lemma {:induction false} DigitsValueBound(s: string)
    requires AllDigits(s)
    ensures DigitsValue(s) < Pow10(|s|)
    decreases |s|
  {
    if s != [] {
      DigitsValueBound(s[..|s| - 1]);
    }
  }

  /** `str(n)` for a non-negative integer: its decimal digits without leading zeros. */
  function Decimal(n: nat): (s: string)
    ensures 0 < |s| && AllDigits(s)
  {
    if n < 10 then [DigitChar(n)] else Decimal(n / 10) + [DigitChar(n % 10)]
  }

  /** `int(str(n)) == n`, and `str(n)` has a leading zero only when it is "0". */
  lemma {:induction false} DecimalRoundTrip(n: nat)
    ensures DigitsValue(Decimal(n)) == n
    ensures Decimal(n)[0] == '0' ==> n == 0
  {
    if n >= 10 {
      var s := Decimal(n);
      DecimalRoundTrip(n / 10);
      assert s[..|s| - 1] == Decimal(n / 10);
    }
  }

  function LowerChar(c: char): (l: char)
    ensures 'A' <= c <= 'Z' ==> l as int == c as int + 32
    ensures !('A' <= c <= 'Z') ==> l == c
  {
    if 'A' <= c <= 'Z' then (c as int + 32) as char else c
  }

  function UpperChar(c: char): (u: char)
    ensures 'a' <= c <= 'z' ==> u as int == c as int - 32
    ensures !('a' <= c <= 'z') ==> u == c
  {
    if 'a' <= c <= 'z' then (c as int - 32) as char else c
  }

  /** `s.lower()`, restricted to the ASCII letters. */
  function Lower(s: string): (l: string)
    ensures |l| == |s| && forall i :: 0 <= i < |s| ==> l[i] == LowerChar(s[i])
  {
    seq(|s|, i requires 0 <= i < |s| => LowerChar(s[i]))
  }

  /** `s.upper()`, restricted to the ASCII letters. */
  function Upper(s: string): (u: string)
    ensures |u| == |s| && forall i :: 0 <= i < |s| ==> u[i] == UpperChar(s[i])
  {
    seq(|s|, i requires 0 <= i < |s| => UpperChar(s[i]))
  }

  /** Length of the longest prefix of `s` made of digits. */
  function DigitRun(s: string): (n: nat)
    ensures n <= |s| && AllDigits(s[..n])
    ensures n == |s| || !IsDigit(s[n])
    decreases |s|
  {
    if s != [] && IsDigit(s[0]) then
      var n := 1 + DigitRun(s[1..]);
      assert s[..n] == [s[0]] + s[1..][..n - 1];
      n
    else 0
  }

  /** Length of the longest prefix of `s` made of whitespace (what a greedy `\s*` takes). */
  function SpaceRun(s: string): (n: nat)
    ensures n <= |s| && forall i :: 0 <= i < n ==> IsSpace(s[i])
    ensures n == |s| || !IsSpace(s[n])
    decreases |s|
  {
    if s != [] && IsSpace(s[0]) then 1 + SpaceRun(s[1..]) else 0
  }

  /** Length of the longest prefix of `s` free of whitespace. */
  function WordRun(s: string): (n: nat)
    ensures n <= |s| && forall i :: 0 <= i < n ==> !IsSpace(s[i])
    ensures n == |s| || IsSpace(s[n])
    decreases |s|
  {
    if s != [] && !IsSpace(s[0]) then 1 + WordRun(s[1..]) else 0
  }

  /** A non-empty string without whitespace: what `str.split()` can produce. */
  predicate IsWord(w: string) {
    0 < |w| && forall i :: 0 <= i < |w| ==> !IsSpace(w[i])
  }

  /**
   * `s.split()` with no separator: the maximal runs of non-whitespace, in
   * order. Leading and trailing whitespace yields no empty pieces, so
   * `s.strip().split() == s.split()`.
   */
  function Words(s: string): (ws: seq<string>)
    ensures forall i :: 0 <= i < |ws| ==> IsWord(ws[i])
    decreases |s|
  {
    if s == [] then []
    else if IsSpace(s[0]) then Words(s[1..])
    else
      var n := WordRun(s);
      [s[..n]] + Words(s[n..])
  }

  /** `' '.join(ws)`. */
  function JoinSpace(ws: seq<string>): string {
    if |ws| == 0 then ""
    else if |ws| == 1 then ws[0]
    else ws[0] + " " + JoinSpace(ws[1..])
  }

  /** Splitting a string built from a word and a rest at a space character. */
  lemma WordsOfWordThen(w: string, rest: string)
    requires IsWord(w)
    requires rest == [] || IsSpace(rest[0])
    ensures Words(w + rest) == [w] + Words(rest)
  {
    var s := w + rest;
    assert s[0] == w[0];
    WordRunOfWord(w, rest);
    assert s[..|w|] == w && s[|w|..] == rest;
  }

  lemma {:induction false} WordRunOfWord(w: string, rest: string)
    requires forall i :: 0 <= i < |w| ==> !IsSpace(w[i])
    requires rest == [] || IsSpace(rest[0])
    ensures WordRun(w + rest) == |w|
    decreases |w|
  {
    if w != [] {
      assert (w + rest)[1..] == w[1..] + rest;
      WordRunOfWord(w[1..], rest);
    } else {
      assert w + rest == rest;
    }
  }

  /** Splitting what `' '.join` built gives back the words it joined. */
  lemma {:induction false} WordsOfJoin(ws: seq<string>)
    requires forall i :: 0 <= i < |ws| ==> IsWord(ws[i])
    ensures Words(JoinSpace(ws)) == ws
    decreases |ws|
  {
    if |ws| == 1 {
      WordsOfWordThen(ws[0], "");
      assert ws[0] + "" == ws[0];
    } else if |ws| > 1 {
      var tail := JoinSpace(ws[1..]);
      WordsOfJoin(ws[1..]);
      WordsOfWordThen(ws[0], " " + tail);
      assert ws[0] + " " + tail == ws[0] + (" " + tail);
      assert (" " + tail)[1..] == tail;
      assert ws == [ws[0]] + ws[1..];
    }
  }

  /** Joining one more word appends a space and the word. */
  lemma {:induction false} JoinSpaceSnoc(ws: seq<string>, w: string)
    requires |ws| > 0
    ensures JoinSpace(ws + [w]) == JoinSpace(ws) + " " + w
    decreases |ws|
  {
    if |ws| > 1 {
      assert (ws + [w])[1..] == ws[1..] + [w];
      JoinSpaceSnoc(ws[1..], w);
    }
  }

  /** Joining a word in front of more words puts a space between. */
  lemma JoinSpaceCons(w: string, ws: seq<string>)
    requires |ws| > 0
    ensures JoinSpace([w] + ws) == w + " " + JoinSpace(ws)
  {
    assert ([w] + ws)[1..] == ws;
  }

  /** A non-empty string whose first character is not whitespace starts its first word. */
  lemma FirstWordStart(s: string)
    requires |s| > 0 && !IsSpace(s[0])
    ensures |Words(s)| > 0 && Words(s)[0][0] == s[0]
  {
  }

  /** Joined words start with the first word. */
  lemma JoinSpaceStart(ws: seq<string>)
    requires |ws| > 0 && |ws[0]| > 0
    ensures |JoinSpace(ws)| > 0 && JoinSpace(ws)[0] == ws[0][0]
  {
  }

  /** Leading whitespace does not change the words. */
  lemma {:induction false} WordsSkipSpaces(s: string)
    ensures Words(s) == Words(s[SpaceRun(s)..])
    decreases |s|
  {
    if s != [] && IsSpace(s[0]) {
      WordsSkipSpaces(s[1..]);
      assert s[1..][SpaceRun(s[1..])..] == s[SpaceRun(s)..];
    }
  }
}

=== FILE: wrappers.dfy ===
/** Failure-carrying values shared by the other modules. */
module Wrappers {

  /** A value that may be missing (a file that is absent, a pattern that did not match). */
  datatype Option<+T> = None | Some(value: T)

  /** A value or the error that replaced it (a Python exception raised to the caller). */
  datatype Result<+T, +E> = Ok(value: T) | Err(error: E)
}
